=== FILE: README.md ===
# Page Speed Optimizer: theme patcher and storefront script, in Dafny

A Dafny model of the two halves of the Shopify page-speed app.

- **The script injector.** It finds the shop's published theme, fetches that theme's `layout/theme.liquid` template, and writes it back. On install the template gets a marker-delimited `<script>` block in front of the first `</head>`, or the first `</body>` when there is no `</head>`. On uninstall every marked block is deleted again.
- **The optimization script.** This is what the block runs in the storefront. It rewrites image attributes, lazy-loads images, minifies inline CSS with three regex passes, defers non-critical style sheets, tags static assets with a cache policy, and marks font preloads as cross-origin. Each step but the last is switched by a configuration flag. The font preloads are always marked.

Modules:

- `Wrappers` (wrappers.dfy): `Option` and `Result`.
- `Strings` (strings.dfy): JavaScript's string operations, as the two files use them.
  - `indexOf` and `includes`.
  - `replace` with a string pattern, including the `$$`, `$&`, `` $` `` and `$'` replacement patterns.
  - The global, lazy `open[\s\S]*?close` deletion, written as a recursion over the next match.
  - A position-by-position reference for that deletion, as a backtracking matcher scans, and proofs that both agree.
- `ThemePatch` (theme_patch.dfy): the injected block, `Inject` and `Remove`, and what they do to a template.
- `ScriptInjector` (script_injector.dfy): theme lookup and the install and uninstall workflows. Each HTTP call is given as the reply it came back with.
- `CssMinify` (css_minify.dfy): the three minification passes, with the full set of characters JavaScript's `\s` matches.
- `OptimizationScript` (optimization_script.dfy): the configuration, each DOM step on one element, and the whole run.
  - The page is the list of its elements in document order.
  - Each element has a tag name, an attribute map and a text.

Two properties one might expect of the patch do not hold of the code:

- Uninstalling does not restore the template exactly. The block's first and last line breaks are outside the markers, so they stay behind (`ThemePatch.RemoveAfterInject`).
- Removal is not idempotent. Deleting one block can join two halves of a marker into a new block (`ThemePatch.RemoveNotIdempotent`).

## Model

| member | source | states |
|---|---|---|
| ScriptInjector.ActiveThemeId | es/shopify-page-speed-app/web/backend/script-injector.ts:48-52 | The lookup fails, with "no active theme", exactly when no theme has the role `main`. Otherwise it returns the id of a `main` theme that has no `main` theme before it. |
| ScriptInjector.ActiveThemeIdIs | es/shopify-page-speed-app/web/backend/script-injector.ts:48-54 | Whichever theme is the first with role `main`, its id is what the lookup returns. |
| ScriptInjector.GetActiveThemeId | es/shopify-page-speed-app/web/backend/script-injector.ts:31-55 | Success exactly when the theme list comes back ok and holds a `main` theme. A response that is not ok fails with its status text. An ok response gives the lookup's result. |
| ScriptInjector.PatchLayout | es/shopify-page-speed-app/web/backend/script-injector.ts:60-129 | Reports success exactly when the lookup, the fetch and the write all succeed. The first request lists the themes, and nothing follows a failed lookup. The second request fetches `layout/theme.liquid` of the active theme. The only write is the patched fetched template, to that key. There are at most three requests. |
| ScriptInjector.InjectOptimizationScript | es/shopify-page-speed-app/web/backend/script-injector.ts:60-129 | Returns true exactly when all three calls succeed. On success the requests are, in order: list the themes, fetch the layout, write back the layout with the block injected. |
| ScriptInjector.RemoveOptimizationScript | es/shopify-page-speed-app/web/backend/script-injector.ts:134-192 | The same as install, except that the layout is written back with every block removed. |
| ThemePatch.InjectionBlock | es/shopify-page-speed-app/web/backend/script-injector.ts:85-91 | The block is the snippet plus 93 characters: the two markers, the script tags and six line breaks. |
| ThemePatch.AnchorAtMeans | es/shopify-page-speed-app/web/backend/script-injector.ts:94-98 | The insertion point is the first occurrence of `</head>`. When there is none, it is the first occurrence of `</body>`. |
| ThemePatch.Inject | es/shopify-page-speed-app/web/backend/script-injector.ts:93-99 | A template with neither `</head>` nor `</body>` is written back unchanged. |
| ThemePatch.InjectBeforeHead | es/shopify-page-speed-app/web/backend/script-injector.ts:94-95 | With a `</head>` at first index `a` and no `$` in the snippet, the result is the template with the block spliced in at `a`. Later `</head>`s are kept, and the template grows by exactly the block. |
| ThemePatch.InjectBeforeBody | es/shopify-page-speed-app/web/backend/script-injector.ts:96-99 | With no `</head>`, the first `</body>` at `a` and no `$` in the snippet, the block is spliced in at `a`, and the template grows by exactly the block. |
| ThemePatch.InjectAtAnchor | es/shopify-page-speed-app/web/backend/script-injector.ts:93-99 | In both cases, the block goes exactly at the insertion point. |
| ThemePatch.AnchorAfterBlock | es/shopify-page-speed-app/web/backend/script-injector.ts:93-99 | After patching, the insertion point is the old one moved past the block, provided the snippet holds neither anchor. |
| ThemePatch.InjectTwice | es/shopify-page-speed-app/web/backend/script-injector.ts:93-99 | Nothing checks for an existing block. So, for a snippet with no `$` that holds neither `</head>` nor `</body>`, installing twice puts two blocks side by side at the insertion point. |
| ThemePatch.Remove | es/shopify-page-speed-app/web/backend/script-injector.ts:159-162 | Removal never lengthens the template. A template without the start marker is kept as it is. |
| ThemePatch.RemoveChangesIffBlock | es/shopify-page-speed-app/web/backend/script-injector.ts:159-162 | Removal changes the template exactly when a start marker is followed somewhere by an end marker. |
| ThemePatch.RemoveIsScan | es/shopify-page-speed-app/web/backend/script-injector.ts:159-162 | Removal equals the global lazy regex replacement, as a matcher performs it position by position. |
| ThemePatch.RemoveAfterInject | es/shopify-page-speed-app/web/backend/script-injector.ts:159-162 | Start from a template with no start marker and a snippet with no end marker and no `$`. Removing right after injecting gives the template with `"\n\n"` at the insertion point, which is never the original. |
| ThemePatch.RemoveNotIdempotent | es/shopify-page-speed-app/web/backend/script-injector.ts:159-162 | A template on which removal is not idempotent: the first removal joins the two halves of a start marker into a new block, and a second removal deletes it. |
| Strings.IndexOf | es/shopify-page-speed-app/web/backend/script-injector.ts:94-95 | The search behind `includes` and `replace`: an index it finds leaves room for the whole pattern. Which index it finds is stated by IndexOfMeans. |
| Strings.IndexOfMeans | es/shopify-page-speed-app/web/backend/script-injector.ts:94 | `indexOf` gives the first occurrence, and gives -1 exactly when there is none. |
| Strings.ContainsIffOccurs | es/shopify-page-speed-app/web/backend/script-injector.ts:94 | `includes` holds exactly when the pattern occurs somewhere. |
| Strings.ReplaceFirst | es/shopify-page-speed-app/web/backend/script-injector.ts:95 | Replacing an absent string pattern leaves the text as it is. |
| Strings.ReplaceFirstAt | es/shopify-page-speed-app/web/backend/script-injector.ts:95 | With a `$`-free replacement, the first occurrence, and only it, is replaced by the replacement text. |
| Strings.Substitute | es/shopify-page-speed-app/web/backend/script-injector.ts:95 | A replacement template without `$` is used as it is. |
| Strings.DeleteFrom | es/shopify-page-speed-app/web/backend/script-injector.ts:159-162 | No contract of its own. It is described by DeleteFromShrinks, DeleteFromChangesIffSpan, DeleteFromIsScan, DeleteFromSkip and DeleteFromLeadingSpan. |
| Strings.DeleteFromShrinks | es/shopify-page-speed-app/web/backend/script-injector.ts:159-162 | Deleting every match never lengthens the text. |
| Strings.DeleteFromChangesIffSpan | es/shopify-page-speed-app/web/backend/script-injector.ts:159-162 | The deletion keeps the text exactly when no `open` is followed by a `close`. |
| Strings.DeleteFromIsScan | es/shopify-page-speed-app/web/backend/script-injector.ts:159-162 | The recursion over next matches equals the matcher's position-by-position scan. |
| Strings.DeleteFromSkip | es/shopify-page-speed-app/web/backend/script-injector.ts:159-162 | A prefix in which no match starts is kept, and the rest is treated as if it stood alone. |
| Strings.DeleteFromLeadingSpan | es/shopify-page-speed-app/web/backend/script-injector.ts:159-162 | A leading match is dropped whole, and the rest is treated as if it stood alone. |
| CssMinify.StripComments | es/shopify-page-speed-app/web/backend/optimization-script.js:89 | Deleting comments never lengthens the text. A text with no `/*` is kept. |
| CssMinify.StripCommentsIsScan | es/shopify-page-speed-app/web/backend/optimization-script.js:89 | Comment deletion equals the matcher's scan of the lazy comment regex. |
| CssMinify.StripCommentsChangesIffComment | es/shopify-page-speed-app/web/backend/optimization-script.js:89 | The text changes exactly when it holds a complete comment. |
| CssMinify.Collapse | es/shopify-page-speed-app/web/backend/optimization-script.js:90 | The result is never longer, and is empty only for the empty text. Its first character is white space exactly when the input's is. All its white space is single blanks. |
| CssMinify.CollapseKeepsText | es/shopify-page-speed-app/web/backend/optimization-script.js:90 | Every non-space character is kept, in order. |
| CssMinify.CollapseFixes | es/shopify-page-speed-app/web/backend/optimization-script.js:90 | The pass leaves a text unchanged exactly when its white space is single blanks already. |
| CssMinify.CollapseKeepsTokens | es/shopify-page-speed-app/web/backend/optimization-script.js:90 | The pass neither merges nor splits a token. A token is a maximal run of characters that are neither white space nor `{ } : ; ,`, or one of those five. So two words that white space separated are still separated. |
| CssMinify.TrimPunct | es/shopify-page-speed-app/web/backend/optimization-script.js:91 | The third pass never lengthens the text, and gives the empty text only for the empty text. |
| CssMinify.TrimPunctSpacing | es/shopify-page-speed-app/web/backend/optimization-script.js:91 | Afterwards no white space stands beside `{ } : ; ,`. |
| CssMinify.TrimPunctKeepsBlanks | es/shopify-page-speed-app/web/backend/optimization-script.js:91 | The third pass adds no white space other than blanks. |
| CssMinify.TrimPunctKeepsSingle | es/shopify-page-speed-app/web/backend/optimization-script.js:91 | The third pass creates no neighbouring white space. |
| CssMinify.TrimPunctKeepsText | es/shopify-page-speed-app/web/backend/optimization-script.js:91 | Every non-space character is kept, in order. |
| CssMinify.TrimPunctKeepsTokens | es/shopify-page-speed-app/web/backend/optimization-script.js:91 | The pass neither merges nor splits a token. White space is dropped only where it separates nothing, next to `{ } : ; ,`. |
| CssMinify.TrimPunctFixes | es/shopify-page-speed-app/web/backend/optimization-script.js:91 | The pass leaves a text unchanged exactly when no white space stands beside punctuation. |
| CssMinify.CollapseSplits | es/shopify-page-speed-app/web/backend/optimization-script.js:90 | After a non-space character, the pass treats the rest of the text as if it stood alone. |
| CssMinify.CollapseGap | es/shopify-page-speed-app/web/backend/optimization-script.js:90 | A white-space run before a non-space character becomes exactly one blank. |
| CssMinify.TrimPunctSplits | es/shopify-page-speed-app/web/backend/optimization-script.js:91 | After a character that is neither white space nor `{ } : ; ,`, the pass treats the rest of the text as if it stood alone. |
| CssMinify.TrimPunctGap | es/shopify-page-speed-app/web/backend/optimization-script.js:91 | A blank before such a character is kept. |
| CssMinify.WordGapKept | es/shopify-page-speed-app/web/backend/optimization-script.js:90-91 | White space between two such characters comes out of the second and third passes as exactly one blank. Each side is minified as if it stood alone. |
| CssMinify.Minify | es/shopify-page-speed-app/web/backend/optimization-script.js:88-91 | The minified CSS is never longer. Its white space is single blanks, and none of it is beside `{ } : ; ,`. |
| CssMinify.MinifyKeepsText | es/shopify-page-speed-app/web/backend/optimization-script.js:88-91 | The minified CSS has the non-space characters of the comment-free text, in order. |
| CssMinify.MinifyKeepsTokens | es/shopify-page-speed-app/web/backend/optimization-script.js:88-91 | The minified CSS has the tokens of the comment-free text. A blank between two words survives, as one blank. |
| CssMinify.MinifyStable | es/shopify-page-speed-app/web/backend/optimization-script.js:88-91 | Minifying again changes nothing exactly when the minified CSS holds no complete comment. Deleting comments can join a slash and a star into a new comment opening: in `//**/* x */`, deleting `/**/` leaves `/* x */`, which a second pass removes. A comment opening that is never closed does no harm. |
| OptimizationScript.ExtensionLength | es/shopify-page-speed-app/web/backend/optimization-script.js:26 | The anchored, case-insensitive alternation matches exactly when the name ends with one of the extensions. The length stripped is that extension's. |
| OptimizationScript.ImageExtensionsExclusive | es/shopify-page-speed-app/web/backend/optimization-script.js:42 | No name ends with two of the extensions, so the order of the alternatives is immaterial. |
| OptimizationScript.ExtensionLengthIs | es/shopify-page-speed-app/web/backend/optimization-script.js:26 | When a name ends with one of the extensions, the match strips exactly that extension. |
| OptimizationScript.WebpRewrite | es/shopify-page-speed-app/web/backend/optimization-script.js:26 | A name ending with `.jpg`, `.jpeg` or `.png`, in any ASCII case, has that extension replaced by `.webp`. Any other name is kept. |
| OptimizationScript.WebpSource | es/shopify-page-speed-app/web/backend/optimization-script.js:24-26 | A `.webp` candidate exists exactly for a non-empty `src` without `.svg`. |
| OptimizationScript.WebpRewriteIdempotent | es/shopify-page-speed-app/web/backend/optimization-script.js:26 | Rewriting an already rewritten name changes nothing. |
| OptimizationScript.WebpKeepsBase | es/shopify-page-speed-app/web/backend/optimization-script.js:26 | A raster name and its `.webp` rewrite have the same `srcset` base. |
| OptimizationScript.SrcsetBase | es/shopify-page-speed-app/web/backend/optimization-script.js:42 | The base is the name with at most five characters taken off its end. A name ending with no image extension is kept whole. |
| OptimizationScript.SrcsetBaseRoundTrip | es/shopify-page-speed-app/web/backend/optimization-script.js:42 | Stripping the extension of `b` plus an image extension gives `b` back. |
| OptimizationScript.ResponsiveSrcset | es/shopify-page-speed-app/web/backend/optimization-script.js:45 | The `srcset` is 51 characters plus three times the base. It is the 480w, 768w and 1200w candidates in that order, each `base-<w>w.webp <w>w`, separated by `", "`. |
| OptimizationScript.ResponsiveImage | es/shopify-page-speed-app/web/backend/optimization-script.js:41-47 | An `<img>` with a `src` and no `srcset` gets the candidates for its `src`. Every other element is kept, and no attribute but `srcset` changes. |
| OptimizationScript.SrcsetBaseStrips | es/shopify-page-speed-app/web/backend/optimization-script.js:42 | When a name ends with an image extension in any ASCII case, the base is the name without those characters. |
| OptimizationScript.ResponsiveImageOfFile | es/shopify-page-speed-app/web/backend/optimization-script.js:41-46 | An image `b.jpg`, `.jpeg`, `.png` or `.webp`, in any case, is offered `b-480w.webp`, `b-768w.webp` and `b-1200w.webp`. |
| OptimizationScript.OptimizeImages | es/shopify-page-speed-app/web/backend/optimization-script.js:18-49 | With the flag off the page is kept. With it on, each element gets the responsive-image step. This is the corrected step, which passes over images without `src`. |
| OptimizationScript.FirstSrcless | es/shopify-page-speed-app/web/backend/optimization-script.js:22-42 | The index of the first image from a given position on that has neither `src` nor `srcset`, or the page length if none does. |
| OptimizationScript.ImagesFrom | es/shopify-page-speed-app/web/backend/optimization-script.js:22-48 | The loop as written throws exactly when a later image has neither `src` nor `srcset`. Every element before that image gets the responsive-image step. That image, the elements after it and the elements already visited stay as they are. |
| OptimizationScript.OptimizeImagesAsWritten | es/shopify-page-speed-app/web/backend/optimization-script.js:18-49 | The step throws exactly when the flag is on and some image has neither `src` nor `srcset`. In that case the elements before the first such image are handled and the rest are kept. Otherwise it agrees with the corrected step. |
| OptimizationScript.LazyImage | es/shopify-page-speed-app/web/backend/optimization-script.js:56-64 | With native lazy loading, only `loading="lazy"` is set. Otherwise, an image with a `src` loses it, and its `data-src` becomes its own non-empty `data-src` or else its `src`. An image without `src` is kept. Only `src`, `data-src` or `loading` change. |
| OptimizationScript.Reveal | es/shopify-page-speed-app/web/backend/optimization-script.js:70 | On intersection, `src` becomes the non-empty `data-src`, or `""`. No other attribute changes. |
| OptimizationScript.RevealAfterLazy | es/shopify-page-speed-app/web/backend/optimization-script.js:61-70 | Deferring and then revealing an image loads its own `src`, or its non-empty `data-src`. Every attribute other than `src` and `data-src` is as before. |
| OptimizationScript.LazyImageOnce | es/shopify-page-speed-app/web/backend/optimization-script.js:56-65 | Applying the lazy-loading step twice is the same as applying it once. |
| OptimizationScript.EnableLazyLoading | es/shopify-page-speed-app/web/backend/optimization-script.js:52-78 | With the flag off the page is kept. Otherwise each element gets the lazy-loading step. |
| OptimizationScript.MinifyStyle | es/shopify-page-speed-app/web/backend/optimization-script.js:85-93 | Only the text of `<style>` elements changes. It does not grow. Its white space is single blanks, none of them beside punctuation. It keeps the non-space characters and the tokens of the comment-free text, so a blank between two words survives as one blank. |
| OptimizationScript.OptimizeCss | es/shopify-page-speed-app/web/backend/optimization-script.js:81-95 | With the flag off the page is kept. Otherwise each element gets the CSS step. |
| OptimizationScript.NonCritical | es/shopify-page-speed-app/web/backend/optimization-script.js:104 | An `href` passes the deferral test exactly when it is present, is non-empty, and has no occurrence of `critical` or `main`. |
| OptimizationScript.DeferStylesheet | es/shopify-page-speed-app/web/backend/optimization-script.js:101-105 | Only a stylesheet link with a non-empty `href` naming neither `critical` nor `main` is changed, and it gets `media="print"`. Nothing but `media` changes. |
| OptimizationScript.OnStylesheetLoad | es/shopify-page-speed-app/web/backend/optimization-script.js:106-108 | When the sheet has loaded, `media` is `all`. Nothing else changes. |
| OptimizationScript.DeferThenLoad | es/shopify-page-speed-app/web/backend/optimization-script.js:104-108 | A deferred sheet is shown for all media once it has loaded. Deferring it twice is the same as once. |
| OptimizationScript.DeferNonCriticalCss | es/shopify-page-speed-app/web/backend/optimization-script.js:98-111 | With the flag off the page is kept. Otherwise each element gets the deferral step. |
| OptimizationScript.TagForCaching | es/shopify-page-speed-app/web/backend/optimization-script.js:120-126 | Stylesheet links, scripts with `src`, images and anything with `srcset` get the cache policy. Nothing else changes. |
| OptimizationScript.TagForCachingOnce | es/shopify-page-speed-app/web/backend/optimization-script.js:124-126 | Tagging an element twice is the same as tagging it once. |
| OptimizationScript.SetupBrowserCaching | es/shopify-page-speed-app/web/backend/optimization-script.js:114-130 | With the flag off, the page and the storage are kept. Otherwise every element is tagged and the policy is stored under `cacheControl`. |
| OptimizationScript.PreloadFont | es/shopify-page-speed-app/web/backend/optimization-script.js:133-142 | A font preload link with a non-empty `href` gets `crossorigin=""`. Every other element is kept. |
| OptimizationScript.LaterSteps | es/shopify-page-speed-app/web/backend/optimization-script.js:196-200 | Each element goes through lazy loading, CSS, deferral, caching and font preloads, each step only when its flag is on except the last. The policy is stored exactly when caching is on. |
| OptimizationScript.RunOptimizationsAsWritten | es/shopify-page-speed-app/web/backend/optimization-script.js:192-204 | When the image step throws, the later steps never run. Local storage is untouched, and only the images before the throwing one have changed. Without a throw, each element gets every enabled step, in source order. |
| OptimizationScript.RunOptimizations | es/shopify-page-speed-app/web/backend/optimization-script.js:192-204 | Each element gets every enabled step, in source order, the image step first. With caching on, the policy is always stored. With every flag off, only the font preloads change the page. |
| OptimizationScript.RunsAgree | es/shopify-page-speed-app/web/backend/optimization-script.js:192-200 | On pages where every image has a `src` or a `srcset`, the run as written and the corrected run agree. |
| OptimizationScript.SrclessImageStopsRun | es/shopify-page-speed-app/web/backend/optimization-script.js:42 | An image with only a `data-src`, then a style sheet: the run as written leaves both untouched and stores nothing. The corrected run stores the policy. |

## Left out

- Network I/O, the access token, the API version, URLs and logging. Each HTTP call is modelled only by the reply it came back with.
- JSON decoding. A body that cannot be decoded, or a theme list that is missing, counts as a thrown reply.
- The workflows' error messages. Every thrown error is caught and becomes `false`, so only the outcome and the requests sent are modelled.
- The DOM as a tree. The selectors used here depend on one element only, so the page is a flat list in document order.
- Attribute-selector case rules. `rel="stylesheet"` and the other selector values are compared exactly, although HTML compares some attribute values without regard to case.
- The wrapping of images in a `<picture>` element (optimization-script.js:29-37). Its guard compares a boolean with a string, so it is always false. The `.webp` candidate it would use is modelled (`OptimizationScript.WebpSource`).
- The intersection and load callbacks. They are modelled as the functions they apply to one element (`Reveal`, `OnStylesheetLoad`), not as events.
- Performance monitoring (optimization-script.js:145-180). It only logs timings from observers, and uses floating point.
- `init` and the `DOMContentLoaded` wait. Only the effect of `runOptimizations` is modelled.
- `imageQuality` and `minifyJS`. The script reads neither.
- TypeScript casts in the script file (`as HTMLImageElement`, `as any`). A plain JavaScript parser would refuse them. The model assumes the script is compiled first.
- UTF-16. Strings are sequences of code points, so a surrogate pair is one character here.
- Strings.Substitute: the contract states only that a template without `$` is copied. The `$$`, `$&`, `` $` `` and `$'` expansions are in its body, but no lemma describes them, because the lemmas that place the block assume a snippet without `$`.
- ThemePatch.Inject: its contract covers only the template with neither anchor. Placement is stated by `InjectBeforeHead`, `InjectBeforeBody` and `InjectAtAnchor`, which require a snippet free of `$`.
- ThemePatch.Remove: its contract gives bounds and the unchanged case. The full behaviour is stated by `RemoveChangesIffBlock` and `RemoveIsScan`.

## Findings

| source | as written | input that shows it | evidently intended | confidence | as-written member | corrected member |
|---|---|---|---|---|---|---|
| es/shopify-page-speed-app/web/backend/optimization-script.js:42 | `src.replace` runs for every image without `srcset`, even when `src` is `null`. An `<img>` with neither attribute throws a TypeError, which ends `runOptimizations`: lazy loading, CSS minification, deferral, cache tags and font preloads never run. | `<img data-src="a.jpg">` followed by `<link rel="stylesheet" href="theme.css">`, default configuration | skip images without `src`, as the `src &&` guard of line 25 does | not executed | OptimizationScript.RunOptimizationsAsWritten, OptimizationScript.SrclessImageStopsRun | OptimizationScript.RunOptimizations |

=== FILE: css_minify.dfy ===
/** The storefront script's CSS minifier: the text of every `<style>` element
    goes through three global regex replacements, in this order:
    1. the lazy comment pattern by `''`: every comment deleted, each from
       its opening slash-star up to the first star-slash after it;
    2. `/\s+/g` by `' '`: every run of white space made one blank;
    3. `\s*([{}:;,])\s*`, global, by `'$1'`: the white space on both sides
       of `{ } : ; ,` dropped.
    Each pass is modelled as the left-to-right scan its regex performs. */
module CssMinify {
  import opened Strings

  const CommentOpen: string := "/*"
  const CommentClose: string := "*/"

  /** The code points JavaScript's `\s` matches: WhiteSpace and
      LineTerminator of ECMA-262 (sections 12.2 and 12.3), with the space
      separators of Unicode 15 */
  const SpaceChars: set<char> := {
    '\t', '\n', '\U{B}', '\U{C}', '\r', ' ', '\U{A0}', '\U{1680}',
    '\U{2000}', '\U{2001}', '\U{2002}', '\U{2003}', '\U{2004}', '\U{2005}',
    '\U{2006}', '\U{2007}', '\U{2008}', '\U{2009}', '\U{200A}',
    '\U{2028}', '\U{2029}', '\U{202F}', '\U{205F}', '\U{3000}', '\U{FEFF}'}

  /** One character `\s` matches */
  predicate IsSpace(c: char) {
    c in SpaceChars
  }

  /** The characters of the class `[{}:;,]` */
  predicate IsPunct(c: char) {
    c == '{' || c == '}' || c == ':' || c == ';' || c == ','
  }

  /** Every white-space character of `t` is a plain blank */
  predicate BlanksOnly(t: string) {
    forall i :: 0 <= i < |t| && IsSpace(t[i]) ==> t[i] == ' '
  }

  /** No two white-space characters of `t` are neighbours */
  predicate NoDoubleSpace(t: string) {
    forall i :: 0 < i < |t| && IsSpace(t[i]) ==> !IsSpace(t[i - 1])
  }

  /** No white space stands right before or right after one of `{ } : ; ,` */
  predicate NoSpaceBesidePunct(t: string) {
    forall i :: 0 < i < |t| ==>
      !(IsSpace(t[i - 1]) && IsPunct(t[i])) && !(IsPunct(t[i - 1]) && IsSpace(t[i]))
  }

  /** `t` with all its white space taken out: the text the passes must keep */
  function NonSpace(t: string): string
    decreases |t|
  {
    if |t| == 0 then []
    else (if IsSpace(t[0]) then [] else [t[0]]) + NonSpace(t[1..])
  }

  /** The length of the run of white space `t` begins with: what a greedy
      `\s*` or `\s+` consumes */
  function SpaceRun(t: string): (n: nat)
    ensures n <= |t|
    ensures forall i :: 0 <= i < n ==> IsSpace(t[i])
    ensures n < |t| ==> !IsSpace(t[n])
    decreases |t|
  {
    if |t| == 0 || !IsSpace(t[0]) then 0
    else
      var n := SpaceRun(t[1..]);
      assert forall i :: 1 <= i < n + 1 ==> t[i] == t[1..][i - 1];
      1 + n
  }

  /** `t` without the white space it begins with */
  function TrimStart(t: string): (r: string)
    ensures |r| <= |t| && (|r| > 0 ==> !IsSpace(r[0]))
  {
    t[SpaceRun(t)..]
  }

  // ---- Pass 1: comments ----

  /** Every comment deleted, each from its opening slash-star up to the first
      star-slash after it; without an opening slash-star the text is kept */
  function StripComments(t: string): (r: string)
    ensures |r| <= |t|
    ensures !Contains(t, CommentOpen) ==> r == t
  {
    DeleteFromShrinks(t, CommentOpen, CommentClose, 0);
    DeleteFrom(t, CommentOpen, CommentClose, 0)
  }

  /** The deletion agrees with the regex matcher, position by position */
  lemma {:induction false} StripCommentsIsScan(t: string)
    ensures StripComments(t) == ScanFrom(t, CommentOpen, CommentClose, 0)
  {
    DeleteFromIsScan(t, CommentOpen, CommentClose, 0);
  }

  /** The text changes exactly when it holds a complete comment */
  lemma {:induction false} StripCommentsChangesIffComment(t: string)
    ensures StripComments(t) != t <==> HasSpanFrom(t, CommentOpen, CommentClose, 0)
  {
    DeleteFromChangesIffSpan(t, CommentOpen, CommentClose, 0);
    assert t[0..] == t;
  }

  // ---- Pass 2: white-space runs ----

  /** `t.replace(/\s+/g, ' ')`: each maximal run of white space becomes a
      single blank */
  function Collapse(t: string): (r: string)
    ensures |r| <= |t| && (|r| == 0 <==> |t| == 0)
    ensures |t| > 0 ==> (IsSpace(r[0]) <==> IsSpace(t[0]))
    ensures BlanksOnly(r) && NoDoubleSpace(r)
    decreases |t|
  {
    if |t| == 0 then []
    else if IsSpace(t[0]) then
      var rest := Collapse(t[SpaceRun(t)..]);
      assert forall i :: 1 <= i < |rest| + 1 ==> ([' '] + rest)[i] == rest[i - 1];
      [' '] + rest
    else
      var rest := Collapse(t[1..]);
      assert forall i :: 1 <= i < |rest| + 1 ==> ([t[0]] + rest)[i] == rest[i - 1];
      [t[0]] + rest
  }

  // ---- Pass 3: white space around punctuation ----

  /** A match of `\s*([{}:;,])\s*` starts at the beginning of `t`: the white
      space it begins with is followed by one of `{ } : ; ,` */
  predicate PunctAhead(t: string) {
    SpaceRun(t) < |t| && IsPunct(t[SpaceRun(t)])
  }

  /** The replacement of `\s*([{}:;,])\s*`, global, by `$1`: wherever a
      match starts, the punctuation character is kept and the white space
      before and after it is dropped; elsewhere one character is copied and
      the scan moves on */
  function TrimPunct(t: string): (r: string)
    ensures |r| <= |t| && (|r| == 0 <==> |t| == 0)
    decreases |t|, 1
  {
    if |t| == 0 then [] else TrimPunctStep(t)
  }

  /** One step of the scan: a match, or one copied character, then the rest */
  function TrimPunctStep(t: string): (r: string)
    requires |t| > 0
    ensures 0 < |r| <= |t|
    decreases |t|, 0
  {
    if PunctAhead(t) then [t[SpaceRun(t)]] + TrimPunct(TrimStart(t[SpaceRun(t) + 1..]))
    else [t[0]] + TrimPunct(t[1..])
  }

  /** What the trimmed text begins with */
  lemma {:induction false} TrimPunctHead(t: string)
    requires |t| > 0
    ensures |TrimPunct(t)| > 0
    ensures TrimPunct(t)[0] == if PunctAhead(t) then t[SpaceRun(t)] else t[0]
  {
  }

  /** The run of white space of `t` goes on, one shorter, past its first
      character */
  lemma {:induction false} SpaceRunPast(t: string)
    requires |t| > 0 && IsSpace(t[0])
    ensures SpaceRun(t[1..]) == SpaceRun(t) - 1
  {
  }

  /** A copied white-space character is never followed by punctuation: the
      run it belongs to does not end in a match */
  lemma {:induction false} CopiedSpaceHasNoPunctAfter(t: string)
    requires |t| > 1 && IsSpace(t[0]) && !PunctAhead(t)
    ensures !IsPunct(TrimPunct(t[1..])[0])
  {
    SpaceRunPast(t);
    TrimPunctHead(t[1..]);
  }

  lemma {:induction false} BesidePunctCons(c: char, r: string)
    requires NoSpaceBesidePunct(r)
    requires |r| > 0 ==> !(IsSpace(c) && IsPunct(r[0])) && !(IsPunct(c) && IsSpace(r[0]))
    ensures NoSpaceBesidePunct([c] + r)
  {
    assert forall i :: 1 <= i < |r| + 1 ==> ([c] + r)[i] == r[i - 1];
  }

  lemma {:induction false} BlanksOnlyCons(c: char, r: string)
    requires BlanksOnly(r) && (IsSpace(c) ==> c == ' ')
    ensures BlanksOnly([c] + r)
  {
    assert forall i :: 1 <= i < |r| + 1 ==> ([c] + r)[i] == r[i - 1];
  }

  lemma {:induction false} NoDoubleSpaceCons(c: char, r: string)
    requires NoDoubleSpace(r) && (|r| > 0 && IsSpace(c) ==> !IsSpace(r[0]))
    ensures NoDoubleSpace([c] + r)
  {
    assert forall i :: 1 <= i < |r| + 1 ==> ([c] + r)[i] == r[i - 1];
  }

  /** Both conditions hold of every suffix */
  lemma {:induction false} SpacingOfSuffix(t: string, k: nat)
    requires k <= |t|
    ensures BlanksOnly(t) ==> BlanksOnly(t[k..])
    ensures NoDoubleSpace(t) ==> NoDoubleSpace(t[k..])
    ensures NoSpaceBesidePunct(t) ==> NoSpaceBesidePunct(t[k..])
  {
    assert forall i :: 0 <= i < |t| - k ==> t[k..][i] == t[k + i];
  }

  /** After the third pass no white space stands beside punctuation */
  lemma {:induction false} TrimPunctSpacing(t: string)
    ensures NoSpaceBesidePunct(TrimPunct(t))
    decreases |t|
  {
    if |t| > 0 {
      if PunctAhead(t) {
        var u := TrimStart(t[SpaceRun(t) + 1..]);
        TrimPunctSpacing(u);
        if |u| > 0 {
          TrimPunctHead(u);
        }
        BesidePunctCons(t[SpaceRun(t)], TrimPunct(u));
      } else {
        TrimPunctSpacing(t[1..]);
        if |t| > 1 {
          TrimPunctHead(t[1..]);
          if IsSpace(t[0]) {
            CopiedSpaceHasNoPunctAfter(t);
          }
        }
        BesidePunctCons(t[0], TrimPunct(t[1..]));
      }
    }
  }

  /** The third pass copies or drops white space, never adds any: text whose
      white space is all blanks stays so */
  lemma {:induction false} TrimPunctKeepsBlanks(t: string)
    requires BlanksOnly(t)
    ensures BlanksOnly(TrimPunct(t))
    decreases |t|
  {
    if |t| > 0 {
      if PunctAhead(t) {
        var k := SpaceRun(t) + 1;
        SpacingOfSuffix(t, k);
        SpacingOfSuffix(t[k..], SpaceRun(t[k..]));
        TrimPunctKeepsBlanks(TrimStart(t[k..]));
        BlanksOnlyCons(t[SpaceRun(t)], TrimPunct(TrimStart(t[k..])));
      } else {
        SpacingOfSuffix(t, 1);
        TrimPunctKeepsBlanks(t[1..]);
        BlanksOnlyCons(t[0], TrimPunct(t[1..]));
      }
    }
  }

  /** ... and text without two neighbouring white-space characters stays so */
  lemma {:induction false} TrimPunctKeepsSingle(t: string)
    requires NoDoubleSpace(t)
    ensures NoDoubleSpace(TrimPunct(t))
    decreases |t|
  {
    if |t| > 0 {
      TrimPunctUnfold(t);
      if PunctAhead(t) {
        var k := SpaceRun(t) + 1;
        var u := TrimStart(t[k..]);
        SpacingOfSuffix(t, k);
        SpacingOfSuffix(t[k..], SpaceRun(t[k..]));
        TrimPunctKeepsSingle(u);
        NoDoubleSpaceCons(t[SpaceRun(t)], TrimPunct(u));
      } else {
        SpacingOfSuffix(t, 1);
        TrimPunctKeepsSingle(t[1..]);
        if |t| > 1 && IsSpace(t[0]) {
          assert !IsSpace(t[1]);
          TrimPunctHead(t[1..]);
        }
        NoDoubleSpaceCons(t[0], TrimPunct(t[1..]));
      }
    }
  }

  // ---- What the passes keep ----

  lemma {:induction false} NonSpaceCons(c: char, r: string)
    ensures NonSpace([c] + r) == (if IsSpace(c) then [] else [c]) + NonSpace(r)
  {
    assert ([c] + r)[1..] == r;
  }

  /** Leading white space adds nothing to the non-space text */
  lemma {:induction false} NonSpaceSkipsRun(t: string, k: nat)
    requires k <= |t| && forall i :: 0 <= i < k ==> IsSpace(t[i])
    ensures NonSpace(t) == NonSpace(t[k..])
    decreases k
  {
    if k > 0 {
      NonSpaceSkipsRun(t[1..], k - 1);
      assert t[1..][k - 1..] == t[k..];
    }
  }

  /** The second pass keeps every non-space character, in order */
  lemma {:induction false} CollapseKeepsText(t: string)
    ensures NonSpace(Collapse(t)) == NonSpace(t)
    decreases |t|
  {
    if |t| > 0 {
      if IsSpace(t[0]) {
        CollapseKeepsText(t[SpaceRun(t)..]);
        NonSpaceCons(' ', Collapse(t[SpaceRun(t)..]));
        NonSpaceSkipsRun(t, SpaceRun(t));
      } else {
        CollapseKeepsText(t[1..]);
        NonSpaceCons(t[0], Collapse(t[1..]));
      }
    }
  }

  /** The third pass keeps every non-space character, in order */
  lemma {:induction false} TrimPunctKeepsText(t: string)
    ensures NonSpace(TrimPunct(t)) == NonSpace(t)
    decreases |t|
  {
    if |t| > 0 {
      if PunctAhead(t) {
        var n := SpaceRun(t);
        var after := t[n + 1..];
        TrimPunctKeepsText(TrimStart(after));
        NonSpaceCons(t[n], TrimPunct(TrimStart(after)));
        NonSpaceSkipsRun(after, SpaceRun(after));
        NonSpaceSkipsRun(t, n);
        NonSpaceCons(t[n], after);
        assert t[n..] == [t[n]] + after;
      } else {
        TrimPunctKeepsText(t[1..]);
        NonSpaceCons(t[0], TrimPunct(t[1..]));
      }
    }
  }

  // ---- Tokens: what the passes must not merge or split ----

  /** The word being read, closed: a token unless it is empty */
  function Flush(word: string): seq<string> {
    if |word| == 0 then [] else [word]
  }

  /** The tokens of `t`, read on from a word already begun: each maximal run
      of characters that are neither white space nor `{ } : ; ,` is one
      token, each of those five characters is a token of its own, and white
      space only separates */
  function TokensFrom(t: string, word: string): seq<string>
    decreases |t|, 1
  {
    if |t| == 0 then Flush(word) else TokensStep(t, word)
  }

  /** One character read: white space closes the word, one of `{ } : ; ,`
      closes it and is a token itself, anything else extends it */
  function TokensStep(t: string, word: string): seq<string>
    requires |t| > 0
    decreases |t|, 0
  {
    if IsSpace(t[0]) then Flush(word) + TokensFrom(t[1..], [])
    else if IsPunct(t[0]) then Flush(word) + ([[t[0]]] + TokensFrom(t[1..], []))
    else TokensFrom(t[1..], word + [t[0]])
  }

  /** The tokens of `t`: two texts with the same tokens differ only in white
      space that separates nothing, such as white space beside `{ } : ; ,`,
      at either end, or a longer run where one blank is enough */
  function Tokens(t: string): seq<string> {
    TokensFrom(t, [])
  }

  lemma {:induction false} TokensCons(c: char, r: string, word: string)
    ensures TokensFrom([c] + r, word) ==
      if IsSpace(c) then Flush(word) + TokensFrom(r, [])
      else if IsPunct(c) then Flush(word) + ([[c]] + TokensFrom(r, []))
      else TokensFrom(r, word + [c])
  {
    assert ([c] + r)[1..] == r;
  }

  /** A run of white space closes the word begun and adds no token */
  lemma {:induction false} TokensSkipRun(t: string, k: nat, word: string)
    requires 0 < k <= |t| && forall i :: 0 <= i < k ==> IsSpace(t[i])
    ensures TokensFrom(t, word) == Flush(word) + TokensFrom(t[k..], [])
    decreases k
  {
    if k > 1 {
      TokensSkipRun(t[1..], k - 1, []);
      assert t[1..][k - 1..] == t[k..];
    }
  }

  /** The second pass neither merges nor splits a token */
  lemma {:induction false} CollapseKeepsTokens(t: string, word: string)
    ensures TokensFrom(Collapse(t), word) == TokensFrom(t, word)
    decreases |t|
  {
    if |t| > 0 {
      if IsSpace(t[0]) {
        var n := SpaceRun(t);
        CollapseKeepsTokens(t[n..], []);
        TokensCons(' ', Collapse(t[n..]), word);
        TokensSkipRun(t, n, word);
      } else {
        var next := if IsPunct(t[0]) then [] else word + [t[0]];
        CollapseKeepsTokens(t[1..], next);
        TokensCons(t[0], Collapse(t[1..]), word);
      }
    }
  }

  /** A match of the third pass's pattern closes the word begun and adds
      its punctuation character as a token */
  lemma {:induction false} TokensAtMatch(t: string, word: string)
    requires PunctAhead(t)
    ensures TokensFrom(t, word) ==
      Flush(word) + ([[t[SpaceRun(t)]]] + TokensFrom(TrimStart(t[SpaceRun(t) + 1..]), []))
  {
    var n := SpaceRun(t);
    var after := t[n + 1..];
    var m := SpaceRun(after);
    var rest := TokensFrom(after[m..], []);
    assert TokensFrom(after, []) == rest by {
      if m > 0 {
        TokensSkipRun(after, m, []);
        assert [] + rest == rest;
      } else {
        assert after[m..] == after;
      }
    }
    assert TokensFrom(t[n..], []) == [[t[n]]] + rest by {
      assert t[n..] == [t[n]] + after;
      TokensCons(t[n], after, []);
      assert Flush([]) + ([[t[n]]] + rest) == [[t[n]]] + rest;
    }
    if n > 0 {
      TokensSkipRun(t, n, word);
    } else {
      assert t == [t[0]] + after;
      TokensCons(t[0], after, word);
    }
  }

  /** The third pass neither merges nor splits a token */
  lemma {:induction false} TrimPunctKeepsTokens(t: string, word: string)
    ensures TokensFrom(TrimPunct(t), word) == TokensFrom(t, word)
    decreases |t|, 1
  {
    if |t| > 0 {
      if PunctAhead(t) {
        TrimPunctTokensAtMatch(t, word);
      } else {
        TrimPunctTokensAtCopy(t, word);
      }
    }
  }

  /** The tokens are kept where a match of the third pass starts */
  lemma {:induction false} TrimPunctTokensAtMatch(t: string, word: string)
    requires PunctAhead(t)
    ensures TokensFrom(TrimPunct(t), word) == TokensFrom(t, word)
    decreases |t|, 0
  {
    TrimPunctUnfold(t);
    var c := t[SpaceRun(t)];
    var u := TrimStart(t[SpaceRun(t) + 1..]);
    assert TrimPunct(t) == [c] + TrimPunct(u);
    TrimPunctKeepsTokens(u, []);
    TokensCons(c, TrimPunct(u), word);
    TokensAtMatch(t, word);
  }

  /** The tokens are kept where the third pass copies a character */
  lemma {:induction false} TrimPunctTokensAtCopy(t: string, word: string)
    requires |t| > 0 && !PunctAhead(t)
    ensures TokensFrom(TrimPunct(t), word) == TokensFrom(t, word)
    decreases |t|, 0
  {
    TrimPunctUnfold(t);
    var next := if IsSpace(t[0]) || IsPunct(t[0]) then [] else word + [t[0]];
    assert TrimPunct(t) == [t[0]] + TrimPunct(t[1..]);
    TrimPunctKeepsTokens(t[1..], next);
    TokensCons(t[0], TrimPunct(t[1..]), word);
    TokensCons(t[0], t[1..], word);
    assert t == [t[0]] + t[1..];
  }

  // ---- Word gaps ----

  /** A character of a token longer than punctuation: neither white space
      nor one of `{ } : ; ,` */
  predicate IsWordChar(c: char) {
    !IsSpace(c) && !IsPunct(c)
  }

  /** The run is the white space up to the first other character */
  lemma {:induction false} SpaceRunIs(t: string, k: nat)
    requires k <= |t| && forall i :: 0 <= i < k ==> IsSpace(t[i])
    requires k < |t| ==> !IsSpace(t[k])
    ensures SpaceRun(t) == k
    decreases k
  {
    if k > 0 {
      assert forall i :: 0 <= i < k - 1 ==> t[1..][i] == t[i + 1];
      SpaceRunIs(t[1..], k - 1);
    }
  }

  /** The white-space run a text begins with is the one its prefix begins
      with, when that prefix does not end in white space */
  lemma {:induction false} SpaceRunPrefix(u: string, s: string)
    requires |u| > 0 && !IsSpace(u[|u| - 1])
    ensures SpaceRun(u + s) == SpaceRun(u) < |u|
  {
    var n := SpaceRun(u);
    RunEndsInSpace(u);
    assert forall i :: 0 <= i <= n ==> (u + s)[i] == u[i];
    SpaceRunIs(u + s, n);
  }

  /** One step of a pass, joined with the pass over the rest: when the whole
      is `c` before the rest, and the rest splits, the whole splits too */
  lemma {:induction false} ConsJoin(c: char, whole: string, rest: string, left: string, r: string, s: string)
    requires whole == [c] + rest && rest == r + s && left == [c] + r
    ensures whole == left + s
  {
  }

  /** One step of the second pass on a text followed by more text: the
      step is the one the text alone takes */
  lemma {:induction false} CollapseStepOn(u: string, s: string)
    requires |u| > 0 && !IsSpace(u[|u| - 1])
    ensures var k := if IsSpace(u[0]) then SpaceRun(u) else 1;
      var c := if IsSpace(u[0]) then ' ' else u[0];
      0 < k <= |u| && (k == |u| ==> c == u[|u| - 1]) &&
      Collapse(u + s) == [c] + Collapse(u[k..] + s) && Collapse(u) == [c] + Collapse(u[k..])
  {
    var t := u + s;
    assert t[0] == u[0];
    if IsSpace(u[0]) {
      SpaceRunPrefix(u, s);
      assert t[SpaceRun(u)..] == u[SpaceRun(u)..] + s;
    } else {
      assert t[1..] == u[1..] + s;
    }
  }

  /** The second pass works on each side of a non-space character apart */
  lemma {:induction false} CollapseSplits(u: string, s: string)
    requires |u| > 0 && !IsSpace(u[|u| - 1])
    ensures Collapse(u + s) == Collapse(u) + Collapse(s)
    decreases |u|
  {
    CollapseStepOn(u, s);
    var k := if IsSpace(u[0]) then SpaceRun(u) else 1;
    var c := if IsSpace(u[0]) then ' ' else u[0];
    var rest := u[k..];
    if |rest| > 0 {
      assert rest[|rest| - 1] == u[|u| - 1];
      CollapseSplits(rest, s);
    } else {
      assert rest + s == s;
    }
    ConsJoin(c, Collapse(u + s), Collapse(rest + s), Collapse(u), Collapse(rest), Collapse(s));
  }

  /** The second pass keeps a final non-space character last */
  lemma {:induction false} CollapseLast(u: string)
    requires |u| > 0 && !IsSpace(u[|u| - 1])
    ensures Collapse(u)[|Collapse(u)| - 1] == u[|u| - 1]
    decreases |u|
  {
    CollapseStepOn(u, []);
    var k := if IsSpace(u[0]) then SpaceRun(u) else 1;
    var c := if IsSpace(u[0]) then ' ' else u[0];
    var rest := u[k..];
    if |rest| > 0 {
      assert rest[|rest| - 1] == u[|u| - 1];
      CollapseLast(rest);
    }
    LastOfCons(c, Collapse(rest));
  }

  /** The last character of a character put in front of a text */
  lemma {:induction false} LastOfCons(c: char, r: string)
    ensures ([c] + r)[|r|] == if |r| == 0 then c else r[|r| - 1]
  {
  }

  /** A white-space run before a non-space character becomes one blank */
  lemma {:induction false} CollapseGap(w: string, v: string)
    requires |w| > 0 && forall i :: 0 <= i < |w| ==> IsSpace(w[i])
    requires |v| > 0 && !IsSpace(v[0])
    ensures Collapse(w + v) == [' '] + Collapse(v)
    ensures Collapse(v)[0] == v[0]
  {
    var t := w + v;
    assert forall i :: 0 <= i < |w| ==> t[i] == w[i];
    assert t[|w|] == v[0];
    SpaceRunIs(t, |w|);
    assert t[|w|..] == v;
  }

  /** The character one step of the third pass emits */
  function TrimHead(u: string): char
    requires |u| > 0
  {
    if PunctAhead(u) then u[SpaceRun(u)] else u[0]
  }

  /** What is left to scan after one step of the third pass */
  function TrimRest(u: string): string
    requires |u| > 0
  {
    if PunctAhead(u) then TrimStart(u[SpaceRun(u) + 1..]) else u[1..]
  }

  /** The third pass is its first step followed by the pass over the rest */
  lemma {:induction false} TrimPunctUnfold(t: string)
    requires |t| > 0
    ensures TrimPunct(t) == [TrimHead(t)] + TrimPunct(TrimRest(t))
  {
  }

  /** Trimming the white space a text begins with does not reach past its
      last non-space character */
  lemma {:induction false} TrimStartPrefix(a: string, s: string)
    requires |a| > 0 && !IsSpace(a[|a| - 1])
    ensures TrimStart(a + s) == TrimStart(a) + s
    ensures |TrimStart(a)| > 0 && TrimStart(a)[|TrimStart(a)| - 1] == a[|a| - 1]
  {
    SpaceRunPrefix(a, s);
    assert (a + s)[SpaceRun(a)..] == a[SpaceRun(a)..] + s;
  }

  /** A match at the start of a text followed by more text is the match the
      text alone begins with */
  lemma {:induction false} TrimRestAtMatch(u: string, s: string)
    requires |u| > 0 && IsWordChar(u[|u| - 1]) && PunctAhead(u)
    ensures PunctAhead(u + s) && TrimHead(u + s) == TrimHead(u)
    ensures TrimRest(u + s) == TrimRest(u) + s
    ensures |TrimRest(u)| > 0 && TrimRest(u)[|TrimRest(u)| - 1] == u[|u| - 1]
  {
    var t := u + s;
    var n := SpaceRun(u);
    SpaceRunPrefix(u, s);
    assert t[n] == u[n];
    var after := u[n + 1..];
    assert |after| > 0 && after[|after| - 1] == u[|u| - 1];
    assert t[n + 1..] == after + s;
    TrimStartPrefix(after, s);
    assert TrimRest(t) == TrimStart(after + s);
    assert TrimRest(u) == TrimStart(after);
  }

  /** Where the text alone begins with no match, neither does it followed
      by more text */
  lemma {:induction false} TrimRestAtCopy(u: string, s: string)
    requires |u| > 0 && IsWordChar(u[|u| - 1]) && !PunctAhead(u)
    ensures !PunctAhead(u + s) && TrimHead(u + s) == TrimHead(u) == u[0]
    ensures TrimRest(u + s) == TrimRest(u) + s && TrimRest(u) == u[1..]
  {
    var t := u + s;
    SpaceRunPrefix(u, s);
    assert t[SpaceRun(u)] == u[SpaceRun(u)];
    assert t[0] == u[0] && t[1..] == u[1..] + s;
  }

  /** One step of the third pass on a text followed by more text: the step
      is the one the text alone takes, and what is left still ends in the
      same word character */
  lemma {:induction false} TrimStepOn(u: string, s: string)
    requires |u| > 0 && IsWordChar(u[|u| - 1])
    ensures var rest := TrimRest(u);
      |rest| < |u| && (|rest| > 0 ==> rest[|rest| - 1] == u[|u| - 1]) &&
      (|rest| == 0 ==> TrimHead(u) == u[|u| - 1]) &&
      TrimPunct(u + s) == [TrimHead(u)] + TrimPunct(rest + s) &&
      TrimPunct(u) == [TrimHead(u)] + TrimPunct(rest)
  {
    if PunctAhead(u) {
      TrimRestAtMatch(u, s);
    } else {
      TrimRestAtCopy(u, s);
      assert |u| > 1 ==> u[1..][|u| - 2] == u[|u| - 1];
    }
    TrimPunctUnfold(u + s);
    TrimPunctUnfold(u);
  }

  /** The third pass works on each side of a word character apart */
  lemma {:induction false} TrimPunctSplits(u: string, s: string)
    requires |u| > 0 && IsWordChar(u[|u| - 1])
    ensures TrimPunct(u + s) == TrimPunct(u) + TrimPunct(s)
    decreases |u|
  {
    TrimStepOn(u, s);
    var rest := TrimRest(u);
    if |rest| > 0 {
      TrimPunctSplits(rest, s);
    } else {
      assert rest + s == s;
    }
    ConsJoin(TrimHead(u), TrimPunct(u + s), TrimPunct(rest + s), TrimPunct(u), TrimPunct(rest), TrimPunct(s));
  }

  /** A blank before a word character is kept by the third pass */
  lemma {:induction false} TrimPunctGap(v: string)
    requires |v| > 0 && IsWordChar(v[0])
    ensures TrimPunct([' '] + v) == [' '] + TrimPunct(v)
    ensures TrimPunct(v)[0] == v[0]
  {
    var t := [' '] + v;
    assert t[1] == v[0] && t[1..] == v;
    assert SpaceRun(t) == 1;
    TrimPunctHead(v);
  }

  /** White space between two word characters survives the second and third
      passes as exactly one blank, and each side is minified as if it stood
      alone */
  lemma {:induction false} WordGapKept(u: string, w: string, v: string)
    requires |u| > 0 && IsWordChar(u[|u| - 1])
    requires |w| > 0 && forall i :: 0 <= i < |w| ==> IsSpace(w[i])
    requires |v| > 0 && IsWordChar(v[0])
    ensures TrimPunct(Collapse(u + w + v)) == TrimPunct(Collapse(u)) + [' '] + TrimPunct(Collapse(v))
  {
    assert u + w + v == u + (w + v);
    CollapseSplits(u, w + v);
    CollapseLast(u);
    CollapseGap(w, v);
    var cu := Collapse(u);
    var cv := Collapse(v);
    TrimPunctSplits(cu, [' '] + cv);
    TrimPunctGap(cv);
  }

  /** The second pass changes exactly the text that has white space other
      than single blanks */
  lemma {:induction false} CollapseFixes(t: string)
    ensures Collapse(t) == t <==> BlanksOnly(t) && NoDoubleSpace(t)
    decreases |t|
  {
    if |t| > 0 && BlanksOnly(t) && NoDoubleSpace(t) {
      SpacingOfSuffix(t, 1);
      CollapseFixes(t[1..]);
      if IsSpace(t[0]) {
        assert SpaceRun(t) == 1;
      }
      assert t == [t[0]] + t[1..];
    }
  }

  /** The third pass changes exactly the text that has white space beside
      punctuation */
  lemma {:induction false} TrimPunctFixes(t: string)
    ensures TrimPunct(t) == t <==> NoSpaceBesidePunct(t)
  {
    TrimPunctSpacing(t);
    if NoSpaceBesidePunct(t) {
      TrimPunctKeepsTidy(t);
    }
  }

  /** Text with no white space beside punctuation is left as it is */
  lemma {:induction false} TrimPunctKeepsTidy(t: string)
    requires NoSpaceBesidePunct(t)
    ensures TrimPunct(t) == t
    decreases |t|
  {
    if |t| > 0 {
      SpacingOfSuffix(t, 1);
      TrimPunctKeepsTidy(t[1..]);
      TidyStep(t);
      assert t == [t[0]] + t[1..];
    }
  }

  /** The character before the end of a leading run of white space is
      white space */
  lemma {:induction false} RunEndsInSpace(t: string)
    ensures SpaceRun(t) > 0 ==> IsSpace(t[SpaceRun(t) - 1])
  {
  }

  /** On tidy text each step of the trimming copies one character */
  lemma {:induction false} TidyStep(t: string)
    requires |t| > 0 && NoSpaceBesidePunct(t)
    ensures TrimPunct(t) == [t[0]] + TrimPunct(t[1..])
  {
    if PunctAhead(t) {
      RunEndsInSpace(t);
      assert SpaceRun(t) == 0;
      if |t| > 1 {
        assert !(IsPunct(t[0]) && IsSpace(t[1]));
        assert t[1..][0] == t[1];
      }
      assert SpaceRun(t[1..]) == 0;
      assert TrimStart(t[1..]) == t[1..];
    }
  }

  // ---- The three passes ----

  /** The minified text of a `<style>` element: never longer than the
      original, with all its white space single blanks and none of it beside
      `{ } : ; ,` */
  function Minify(t: string): (r: string)
    ensures |r| <= |t|
    ensures BlanksOnly(r) && NoDoubleSpace(r) && NoSpaceBesidePunct(r)
  {
    var c := Collapse(StripComments(t));
    TrimPunctSpacing(c);
    TrimPunctKeepsBlanks(c);
    TrimPunctKeepsSingle(c);
    TrimPunct(c)
  }

  /** The minified text keeps every non-space character of the text without
      its comments, in order */
  lemma {:induction false} MinifyKeepsText(t: string)
    ensures NonSpace(Minify(t)) == NonSpace(StripComments(t))
  {
    CollapseKeepsText(StripComments(t));
    TrimPunctKeepsText(Collapse(StripComments(t)));
  }

  /** The minified text has the tokens of the text without its comments:
      every blank between two words survives, as one blank */
  lemma {:induction false} MinifyKeepsTokens(t: string)
    ensures Tokens(Minify(t)) == Tokens(StripComments(t))
  {
    CollapseKeepsTokens(StripComments(t), []);
    TrimPunctKeepsTokens(Collapse(StripComments(t)), []);
  }

  /** Minifying again changes nothing exactly when the minified text holds no
      complete comment: deleting the comments can join a slash and a star
      into a new comment opening, and a second pass removes only a comment
      that is closed as well */
  lemma {:induction false} MinifyStable(t: string)
    ensures Minify(Minify(t)) == Minify(t) <==> !HasSpanFrom(Minify(t), CommentOpen, CommentClose, 0)
  {
    var m := Minify(t);
    match NextSpan(m, CommentOpen, CommentClose, 0)
    case None =>
      NoSpanWithoutNext(m, CommentOpen, CommentClose, 0);
      StripCommentsChangesIffComment(m);
      CollapseFixes(m);
      TrimPunctFixes(m);
    case Some((p, q)) =>
      SpanShortens(m, CommentOpen, CommentClose, 0, p, q);
      assert |Minify(m)| <= |Collapse(StripComments(m))| <= |StripComments(m)|;
  }
}

=== FILE: optimization_script.dfy ===
/** The storefront optimization script: the string rewriting it applies to the
    page's images, style sheets and links, each step switched on or off by a
    flag of the configuration.

    The page is modelled as the list of its elements in document order, each
    with its tag name, its attributes and its text content; the selectors the
    script queries become predicates on one element. */
module OptimizationScript {
  import opened Wrappers
  import opened Strings
  import CssMinify

  /** The script's switches; only the ones below steer anything */
  datatype Config = Config(
    enableImageOptimization: bool,
    enableLazyLoading: bool,
    enableCaching: bool,
    imageQuality: int,
    minifyCSS: bool,
    minifyJS: bool,
    deferNonCriticalCSS: bool)

  /** The configuration the script ships with: every step on */
  const DefaultConfig: Config := Config(true, true, true, 80, true, true, true)

  /** An element of the page: its lower-case tag name, its attributes and its
      text content */
  datatype Element = Element(tag: string, attrs: map<string, string>, text: string)

  /** `element.getAttribute(name)`, with `None` for `null` */
  function Attr(e: Element, name: string): Option<string> {
    if name in e.attrs then Some(e.attrs[name]) else None
  }

  /** The value is a non-empty string: what `if (value)` accepts of a
      `getAttribute` result */
  predicate Truthy(v: Option<string>) {
    v.Some? && |v.value| > 0
  }

  /** `e` differs from `f` at most in the attributes `names` */
  ghost predicate SameBut(e: Element, f: Element, names: set<string>) {
    e.tag == f.tag && e.text == f.text &&
    forall k :: k !in names ==> (k in e.attrs <==> k in f.attrs) && (k in e.attrs ==> e.attrs[k] == f.attrs[k])
  }

  /** `element.setAttribute(name, value)` */
  function SetAttr(e: Element, name: string, value: string): (r: Element)
    ensures SameBut(e, r, {name}) && Attr(r, name) == Some(value)
  {
    e.(attrs := e.attrs[name := value])
  }

  /** One step applied to every element of the page */
  function MapElements(page: seq<Element>, f: Element -> Element): (r: seq<Element>)
    ensures |r| == |page| && forall i :: 0 <= i < |page| ==> r[i] == f(page[i])
  {
    seq(|page|, i requires 0 <= i < |page| => f(page[i]))
  }

  // ---- File-name extensions ----

  /** ASCII lower case, which is all that the `i` flag of a regex without the
      `u` flag folds for these patterns */
  function Lower(c: char): char {
    if 'A' <= c <= 'Z' then (c as int + 32) as char else c
  }

  /** `s` ends with the lower-case `suffix`, ignoring ASCII case */
  predicate EndsWithIgnoreCase(s: string, suffix: string) {
    |suffix| <= |s| && forall i :: 0 <= i < |suffix| ==> Lower(s[|s| - |suffix| + i]) == suffix[i]
  }

  /** The extensions `/\.(jpg|jpeg|png)$/i` matches */
  const RasterExtensions: seq<string> := [".jpg", ".jpeg", ".png"]

  /** The extensions `/\.(jpg|jpeg|png|webp)$/i` matches */
  const ImageExtensions: seq<string> := [".jpg", ".jpeg", ".png", ".webp"]

  /** The length of the extension from `exts` that `s` ends with, 0 if none:
      the match of the anchored alternation */
  function ExtensionLength(s: string, exts: seq<string>): (n: nat)
    ensures n <= |s|
    ensures n > 0 <==> exists e :: e in exts && |e| > 0 && EndsWithIgnoreCase(s, e)
    ensures n > 0 ==> exists e :: e in exts && |e| == n && EndsWithIgnoreCase(s, e)
    decreases |exts|
  {
    if |exts| == 0 then 0
    else if |exts[0]| > 0 && EndsWithIgnoreCase(s, exts[0]) then |exts[0]|
    else
      var n := ExtensionLength(s, exts[1..]);
      assert forall e :: e in exts[1..] ==> e in exts;
      assert forall e :: e in exts && e != exts[0] ==> e in exts[1..];
      n
  }

  /** No text ends with two of the image extensions at once, so the
      alternation has at most one match and the order of its alternatives
      does not matter */
  lemma {:induction false} ImageExtensionsExclusive(s: string, e1: string, e2: string)
    requires e1 in ImageExtensions && e2 in ImageExtensions && e1 != e2
    ensures !(EndsWithIgnoreCase(s, e1) && EndsWithIgnoreCase(s, e2))
  {
    LastTwoFold(s, e1);
    LastTwoFold(s, e2);
  }

  /** What ending with `e` says about the last two characters */
  lemma {:induction false} LastTwoFold(s: string, e: string)
    requires |e| >= 2
    ensures EndsWithIgnoreCase(s, e) ==>
      Lower(s[|s| - 1]) == e[|e| - 1] && Lower(s[|s| - 2]) == e[|e| - 2]
  {
    if EndsWithIgnoreCase(s, e) {
      assert Lower(s[|s| - |e| + (|e| - 1)]) == e[|e| - 1];
      assert Lower(s[|s| - |e| + (|e| - 2)]) == e[|e| - 2];
    }
  }

  /** The alternation's match is the one extension the text ends with */
  lemma {:induction false} ExtensionLengthIs(s: string, exts: seq<string>)
    requires forall e :: e in exts ==> e in ImageExtensions
    ensures forall e :: e in exts && EndsWithIgnoreCase(s, e) ==> ExtensionLength(s, exts) == |e|
  {
    var n := ExtensionLength(s, exts);
    forall e | e in exts && EndsWithIgnoreCase(s, e)
      ensures n == |e|
    {
      var d :| d in exts && |d| == n && EndsWithIgnoreCase(s, d);
      if d != e {
        ImageExtensionsExclusive(s, d, e);
      }
    }
  }

  /** `src.replace(/\.(jpg|jpeg|png)$/i, '.webp')`: a name ending with a
      raster extension, in any letter case, has it replaced by `.webp`, and
      any other name is kept */
  function WebpRewrite(src: string): (r: string)
    ensures (forall e :: e in RasterExtensions ==> !EndsWithIgnoreCase(src, e)) ==> r == src
    ensures forall e :: e in RasterExtensions && EndsWithIgnoreCase(src, e) ==> r == Unsuffixed(src, e) + ".webp"
  {
    var n := ExtensionLength(src, RasterExtensions);
    if n == 0 then src
    else
      ExtensionLengthIs(src, RasterExtensions);
      src[..|src| - n] + ".webp"
  }

  /** The candidate `webpSrc` of an image: only a non-empty `src` without
      `.svg` is rewritten */
  function WebpSource(src: Option<string>): (r: Option<string>)
    ensures r.Some? <==> Truthy(src) && !Contains(src.value, ".svg")
    ensures r.Some? ==> r.value == WebpRewrite(src.value)
  {
    if Truthy(src) && !Contains(src.value, ".svg") then Some(WebpRewrite(src.value)) else None
  }

  /** `src.replace(/\.(jpg|jpeg|png|webp)$/i, '')`: a prefix of the name, which
      is the whole name when it ends with no image extension */
  function SrcsetBase(src: string): (r: string)
    ensures |src| - 5 <= |r| <= |src| && r == src[..|r|]
    ensures (forall e :: e in ImageExtensions ==> !EndsWithIgnoreCase(src, e)) ==> r == src
  {
    src[..|src| - ExtensionLength(src, ImageExtensions)]
  }

  /** `s` without its last `|suffix|` characters */
  function Unsuffixed(s: string, suffix: string): string
    requires |suffix| <= |s|
  {
    s[..|s| - |suffix|]
  }

  /** `e` is unchanged by lower-casing */
  predicate LowerCase(e: string) {
    forall i :: 0 <= i < |e| ==> Lower(e[i]) == e[i]
  }

  /** A lower-case suffix is found at the end of whatever it is appended to */
  lemma {:induction false} AppendedEnds(b: string, e: string)
    requires LowerCase(e)
    ensures EndsWithIgnoreCase(b + e, e)
  {
    var s := b + e;
    forall i | 0 <= i < |e|
      ensures Lower(s[|s| - |e| + i]) == e[i]
    {
      assert s[|s| - |e| + i] == e[i];
    }
  }

  /** A `.webp` name ends with no raster extension */
  lemma {:induction false} WebpEnd(b: string)
    ensures EndsWithIgnoreCase(b + ".webp", ".webp")
    ensures forall e :: e in RasterExtensions ==> !EndsWithIgnoreCase(b + ".webp", e)
  {
    var s := b + ".webp";
    assert LowerCase(".webp");
    AppendedEnds(b, ".webp");
    forall e | e in RasterExtensions
      ensures !EndsWithIgnoreCase(s, e)
    {
      LastTwoFold(s, e);
      assert s[|s| - 1] == 'p';
    }
  }

  /** Rewriting to `.webp` a second time changes nothing */
  lemma {:induction false} WebpRewriteIdempotent(src: string)
    ensures WebpRewrite(WebpRewrite(src)) == WebpRewrite(src)
  {
    var n := ExtensionLength(src, RasterExtensions);
    if n > 0 {
      var e :| e in RasterExtensions && |e| == n && EndsWithIgnoreCase(src, e);
      var b := Unsuffixed(src, e);
      assert WebpRewrite(src) == b + ".webp";
      WebpEnd(b);
    }
  }

  /** A raster file and its `.webp` rewrite share their `srcset` base */
  lemma {:induction false} WebpKeepsBase(src: string)
    ensures SrcsetBase(WebpRewrite(src)) == SrcsetBase(src)
  {
    var n := ExtensionLength(src, RasterExtensions);
    if n > 0 {
      var e :| e in RasterExtensions && |e| == n && EndsWithIgnoreCase(src, e);
      var b := Unsuffixed(src, e);
      assert WebpRewrite(src) == b + ".webp";
      SrcsetBaseStrips(src, e);
      SrcsetBaseRoundTrip(b, ".webp");
    }
  }

  /** The only extension a text ends with is the one the match strips */
  lemma {:induction false} ExtensionIs(s: string, exts: seq<string>, e: string)
    requires e in exts && |e| > 0 && EndsWithIgnoreCase(s, e)
    requires forall e2 :: e2 in exts && e2 != e ==> !EndsWithIgnoreCase(s, e2)
    ensures ExtensionLength(s, exts) == |e|
  {
  }

  /** Stripping a known extension and putting it back gives the text again */
  lemma {:induction false} SrcsetBaseRoundTrip(b: string, e: string)
    requires e in ImageExtensions
    ensures SrcsetBase(b + e) == b
  {
    var s := b + e;
    assert LowerCase(e);
    AppendedEnds(b, e);
    SrcsetBaseStrips(s, e);
    assert s[..|b|] == b;
  }

  /** Whatever its case, a known extension at the end is what the match
      strips */
  lemma {:induction false} SrcsetBaseStrips(s: string, e: string)
    requires e in ImageExtensions && EndsWithIgnoreCase(s, e)
    ensures SrcsetBase(s) == Unsuffixed(s, e)
  {
    forall e2 | e2 in ImageExtensions && e2 != e
      ensures !EndsWithIgnoreCase(s, e2)
    {
      ImageExtensionsExclusive(s, e, e2);
    }
    ExtensionIs(s, ImageExtensions, e);
  }

  // ---- Responsive images ----

  /** One `srcset` candidate: the base with the width and `.webp` appended,
      then the width descriptor */
  function Candidate(base: string, width: string): string {
    base + "-" + width + "w.webp " + width + "w"
  }

  /** The `srcset` written for an image: the three candidates at 480, 768 and
      1200 pixels, in that order */
  function ResponsiveSrcset(base: string): (r: string)
    ensures |r| == 3 * |base| + 51
    ensures r[..|Candidate(base, "480")|] == Candidate(base, "480")
    ensures r[|Candidate(base, "480")|..|Candidate(base, "480")| + 2] == ", "
    ensures r[|Candidate(base, "480")| + 2..|r| - |Candidate(base, "1200")| - 2] == Candidate(base, "768")
    ensures r[|r| - |Candidate(base, "1200")| - 2..|r| - |Candidate(base, "1200")|] == ", "
    ensures r[|r| - |Candidate(base, "1200")|..] == Candidate(base, "1200")
  {
    Candidate(base, "480") + ", " + Candidate(base, "768") + ", " + Candidate(base, "1200")
  }

  /** The responsive-image step on one element, as intended: an image without
      a `srcset` and with a `src` gets the three candidates built from its
      `src`; nothing else changes */
  function ResponsiveImage(e: Element): (r: Element)
    ensures SameBut(e, r, {"srcset"})
    ensures e.tag == "img" && "srcset" !in e.attrs && "src" in e.attrs ==>
      Attr(r, "srcset") == Some(ResponsiveSrcset(SrcsetBase(e.attrs["src"])))
    ensures !(e.tag == "img" && "srcset" !in e.attrs && "src" in e.attrs) ==> r == e
  {
    if e.tag == "img" && "srcset" !in e.attrs && "src" in e.attrs then
      SetAttr(e, "srcset", ResponsiveSrcset(SrcsetBase(e.attrs["src"])))
    else e
  }

  /** An image `b.jpg` (or `.jpeg`, `.png`, `.webp`, in any case) without a
      `srcset` is offered the three `.webp` variants of `b` */
  lemma {:induction false} ResponsiveImageOfFile(e: Element, ext: string)
    requires e.tag == "img" && "srcset" !in e.attrs && "src" in e.attrs
    requires ext in ImageExtensions && EndsWithIgnoreCase(e.attrs["src"], ext)
    ensures Attr(ResponsiveImage(e), "srcset") == Some(ResponsiveSrcset(Unsuffixed(e.attrs["src"], ext)))
  {
    SrcsetBaseStrips(e.attrs["src"], ext);
  }

  /** `optimizeImages`, as intended: images without a `src` are passed over.
      (The `.webp` candidate it computes feeds only a branch whose guard is
      always false, so it changes nothing on the page.) */
  function OptimizeImages(cfg: Config, page: seq<Element>): (r: seq<Element>)
    ensures |r| == |page|
    ensures !cfg.enableImageOptimization ==> r == page
    ensures cfg.enableImageOptimization ==> forall i :: 0 <= i < |page| ==> r[i] == ResponsiveImage(page[i])
  {
    if cfg.enableImageOptimization then MapElements(page, ResponsiveImage) else page
  }

  /** An image the responsive-image step of the script cannot handle: it has
      neither a `srcset` nor a `src`, so `src.replace` is called on `null` */
  predicate Srcless(e: Element) {
    e.tag == "img" && "srcset" !in e.attrs && "src" !in e.attrs
  }

  /** The index of the first image from the `i`-th element on that the step
      cannot handle, `|page|` if there is none */
  function FirstSrcless(page: seq<Element>, i: nat): (k: nat)
    requires i <= |page|
    ensures i <= k <= |page|
    ensures k < |page| ==> Srcless(page[k])
    ensures forall j :: i <= j < k ==> !Srcless(page[j])
    decreases |page| - i
  {
    if i == |page| || Srcless(page[i]) then i else FirstSrcless(page, i + 1)
  }

  /** The first such image depends only on the elements from `i` on */
  lemma {:induction false} FirstSrclessOfSame(a: seq<Element>, b: seq<Element>, i: nat)
    requires i <= |a| == |b| && forall j :: i <= j < |a| ==> a[j] == b[j]
    ensures FirstSrcless(a, i) == FirstSrcless(b, i)
    decreases |a| - i
  {
    if i < |a| && !Srcless(a[i]) {
      FirstSrclessOfSame(a, b, i + 1);
    }
  }

  /** There is such an image exactly when the search stops short of the end */
  lemma {:induction false} FirstSrclessFinds(page: seq<Element>, i: nat)
    requires i <= |page|
    ensures FirstSrcless(page, i) < |page| <==> exists j :: i <= j < |page| && Srcless(page[j])
  {
    var k := FirstSrcless(page, i);
    if k == |page| {
      assert forall j :: i <= j < |page| ==> !Srcless(page[j]);
    }
  }

  /** Handling an image the step can handle does not move the first one it
      cannot */
  lemma {:induction false} FirstSrclessPast(page: seq<Element>, i: nat)
    requires i < |page| && !Srcless(page[i])
    ensures FirstSrcless(page[i := ResponsiveImage(page[i])], i + 1) == FirstSrcless(page, i)
  {
    FirstSrclessOfSame(page[i := ResponsiveImage(page[i])], page, i + 1);
  }

  /** The page after a step that may throw, and whether it threw */
  datatype Run = Run(page: seq<Element>, threw: bool)

  /** The image loop as written, from the `i`-th element on: the elements
      before the first throwing image are handled, that image and the rest
      stay as they were */
  function ImagesFrom(page: seq<Element>, i: nat): (r: Run)
    requires i <= |page|
    ensures |r.page| == |page|
    ensures r.threw <==> exists j :: i <= j < |page| && Srcless(page[j])
    ensures r.threw <==> FirstSrcless(page, i) < |page|
    ensures forall j :: i <= j < FirstSrcless(page, i) ==> r.page[j] == ResponsiveImage(page[j])
    ensures forall j :: 0 <= j < i || FirstSrcless(page, i) <= j < |page| ==> r.page[j] == page[j]
    decreases |page| - i
  {
    FirstSrclessFinds(page, i);
    if i == |page| then Run(page, false)
    else if Srcless(page[i]) then Run(page, true)
    else
      var next := page[i := ResponsiveImage(page[i])];
      FirstSrclessPast(page, i);
      ImagesFrom(next, i + 1)
  }

  /** `optimizeImages` as written: it throws on the first image without `src`
      or `srcset` */
  function OptimizeImagesAsWritten(cfg: Config, page: seq<Element>): (r: Run)
    ensures |r.page| == |page|
    ensures r.threw <==> cfg.enableImageOptimization && exists j :: 0 <= j < |page| && Srcless(page[j])
    ensures !r.threw ==> r.page == OptimizeImages(cfg, page)
    ensures r.threw ==> forall j :: 0 <= j < |page| ==>
      r.page[j] == if j < FirstSrcless(page, 0) then ResponsiveImage(page[j]) else page[j]
  {
    if cfg.enableImageOptimization then ImagesFrom(page, 0) else Run(page, false)
  }

  // ---- Lazy loading ----

  /** The lazy-loading step on one image. With native lazy loading the image
      is marked `loading="lazy"`. Otherwise an image with a `src` has it moved
      to `data-src`, unless `data-src` already holds a non-empty value, and
      loses its `src`; an image without `src` is left alone. */
  function LazyImage(e: Element, native: bool): (r: Element)
    ensures e.tag != "img" ==> r == e
    ensures e.tag == "img" && native ==> SameBut(e, r, {"loading"}) && Attr(r, "loading") == Some("lazy")
    ensures e.tag == "img" && !native && "src" in e.attrs ==>
      "src" !in r.attrs &&
      Attr(r, "data-src") == (if Truthy(Attr(e, "data-src")) then Attr(e, "data-src") else Attr(e, "src")) &&
      SameBut(e, r, {"src", "data-src"})
    ensures e.tag == "img" && !native && "src" !in e.attrs ==> r == e
  {
    if e.tag != "img" then e
    else if native then SetAttr(e, "loading", "lazy")
    else if "src" !in e.attrs then e
    else
      var source := if Truthy(Attr(e, "data-src")) then e.attrs["data-src"] else e.attrs["src"];
      e.(attrs := e.attrs["data-src" := source] - {"src"})
  }

  /** What the intersection observer does once a deferred image comes into
      view: `img.src = img.getAttribute('data-src') || ''` */
  function Reveal(e: Element): (r: Element)
    ensures SameBut(e, r, {"src"})
    ensures Attr(r, "src") == Some(if Truthy(Attr(e, "data-src")) then e.attrs["data-src"] else "")
  {
    SetAttr(e, "src", if Truthy(Attr(e, "data-src")) then e.attrs["data-src"] else "")
  }

  /** Deferring an image and then revealing it loads the source the step
      chose: its own `src`, or a non-empty `data-src` it already had; every
      attribute but `src` and `data-src` is as before */
  lemma {:induction false} RevealAfterLazy(e: Element)
    requires e.tag == "img" && "src" in e.attrs
    ensures var r := Reveal(LazyImage(e, false));
      Attr(r, "src") == (if Truthy(Attr(e, "data-src")) then Attr(e, "data-src") else Attr(e, "src")) &&
      forall k :: k != "src" && k != "data-src" ==> (k in r.attrs <==> k in e.attrs) && (k in r.attrs ==> r.attrs[k] == e.attrs[k])
  {
  }

  /** Deferring an image a second time changes nothing: it no longer has a
      `src`, or it is already marked lazy */
  lemma {:induction false} LazyImageOnce(e: Element, native: bool)
    ensures LazyImage(LazyImage(e, native), native) == LazyImage(e, native)
  {
    if e.tag == "img" && native {
      assert LazyImage(e, native).attrs["loading" := "lazy"] == LazyImage(e, native).attrs;
    }
  }

  /** `enableLazyLoading`; `native` says whether the browser has the
      `loading` attribute */
  function EnableLazyLoading(cfg: Config, page: seq<Element>, native: bool): (r: seq<Element>)
    ensures |r| == |page|
    ensures !cfg.enableLazyLoading ==> r == page
    ensures cfg.enableLazyLoading ==> forall i :: 0 <= i < |page| ==> r[i] == LazyImage(page[i], native)
  {
    if cfg.enableLazyLoading then MapElements(page, e => LazyImage(e, native)) else page
  }

  // ---- Style sheets ----

  /** The CSS step on one element: the text of a `<style>` element is
      minified when it is not empty */
  function MinifyStyle(e: Element): (r: Element)
    ensures r.tag == e.tag && r.attrs == e.attrs
    ensures e.tag == "style" ==> |r.text| <= |e.text| && CssMinify.NoSpaceBesidePunct(r.text)
    ensures e.tag == "style" ==> CssMinify.BlanksOnly(r.text) && CssMinify.NoDoubleSpace(r.text)
    ensures e.tag == "style" && |e.text| > 0 ==>
      CssMinify.NonSpace(r.text) == CssMinify.NonSpace(CssMinify.StripComments(e.text))
    ensures e.tag == "style" && |e.text| > 0 ==>
      CssMinify.Tokens(r.text) == CssMinify.Tokens(CssMinify.StripComments(e.text))
    ensures e.tag != "style" ==> r == e
  {
    if e.tag == "style" && |e.text| > 0 then
      CssMinify.MinifyKeepsText(e.text);
      CssMinify.MinifyKeepsTokens(e.text);
      e.(text := CssMinify.Minify(e.text))
    else e
  }

  /** `optimizeCSS` */
  function OptimizeCss(cfg: Config, page: seq<Element>): (r: seq<Element>)
    ensures |r| == |page|
    ensures !cfg.minifyCSS ==> r == page
    ensures cfg.minifyCSS ==> forall i :: 0 <= i < |page| ==> r[i] == MinifyStyle(page[i])
  {
    if cfg.minifyCSS then MapElements(page, MinifyStyle) else page
  }

  /** `link[rel="stylesheet"]` */
  predicate IsStylesheet(e: Element) {
    e.tag == "link" && Attr(e, "rel") == Some("stylesheet")
  }

  /** A style sheet is loaded late when its `href` is non-empty and names
      neither `critical` nor `main` */
  predicate NonCritical(href: Option<string>)
    ensures NonCritical(href) <==>
      (href.Some? && |href.value| > 0 &&
       (forall i: nat :: !OccursAt(href.value, "critical", i)) &&
       (forall i: nat :: !OccursAt(href.value, "main", i)))
  {
    if href.Some? then
      ContainsIffOccurs(href.value, "critical");
      ContainsIffOccurs(href.value, "main");
      Truthy(href) && !Contains(href.value, "critical") && !Contains(href.value, "main")
    else false
  }

  /** The deferral step on one element: a non-critical style sheet is given
      `media="print"`, so that it does not block rendering */
  function DeferStylesheet(e: Element): (r: Element)
    ensures SameBut(e, r, {"media"})
    ensures r != e ==> IsStylesheet(e) && NonCritical(Attr(e, "href"))
    ensures IsStylesheet(e) && NonCritical(Attr(e, "href")) ==> Attr(r, "media") == Some("print")
  {
    if IsStylesheet(e) && NonCritical(Attr(e, "href")) then SetAttr(e, "media", "print") else e
  }

  /** The `onload` handler of a deferred style sheet: `this.media = 'all'` */
  function OnStylesheetLoad(e: Element): (r: Element)
    ensures SameBut(e, r, {"media"}) && Attr(r, "media") == Some("all")
  {
    SetAttr(e, "media", "all")
  }

  /** A deferred style sheet is shown once it has loaded, and a second
      deferral pass leaves it deferred */
  lemma {:induction false} DeferThenLoad(e: Element)
    requires IsStylesheet(e) && NonCritical(Attr(e, "href"))
    ensures Attr(OnStylesheetLoad(DeferStylesheet(e)), "media") == Some("all")
    ensures DeferStylesheet(DeferStylesheet(e)) == DeferStylesheet(e)
  {
    var d := DeferStylesheet(e);
    assert IsStylesheet(d) && Attr(d, "href") == Attr(e, "href");
    assert d.attrs["media" := "print"] == d.attrs;
  }

  /** `deferNonCriticalCSS` */
  function DeferNonCriticalCss(cfg: Config, page: seq<Element>): (r: seq<Element>)
    ensures |r| == |page|
    ensures !cfg.deferNonCriticalCSS ==> r == page
    ensures cfg.deferNonCriticalCSS ==> forall i :: 0 <= i < |page| ==> r[i] == DeferStylesheet(page[i])
  {
    if cfg.deferNonCriticalCSS then MapElements(page, DeferStylesheet) else page
  }

  // ---- Caching hints and font preloads ----

  /** The cache policy every static asset is tagged with */
  const CacheControl: string := "public, max-age=3600, immutable"

  /** `link[rel="stylesheet"], script[src], img, [srcset]` */
  predicate IsStaticAsset(e: Element) {
    IsStylesheet(e) || (e.tag == "script" && "src" in e.attrs) || e.tag == "img" || "srcset" in e.attrs
  }

  /** The caching step on one element */
  function TagForCaching(e: Element): (r: Element)
    ensures SameBut(e, r, {"data-cache-control"})
    ensures IsStaticAsset(e) ==> Attr(r, "data-cache-control") == Some(CacheControl)
    ensures !IsStaticAsset(e) ==> r == e
  {
    if IsStaticAsset(e) then SetAttr(e, "data-cache-control", CacheControl) else e
  }

  /** Tagging a tagged asset again changes nothing */
  lemma {:induction false} TagForCachingOnce(e: Element)
    ensures TagForCaching(TagForCaching(e)) == TagForCaching(e)
  {
    if IsStaticAsset(e) {
      var t := TagForCaching(e);
      assert IsStaticAsset(t);
      assert t.attrs["data-cache-control" := CacheControl] == t.attrs;
    }
  }

  /** `setupBrowserCaching`: every static asset is tagged, and the policy is
      kept in local storage under `cacheControl` */
  function SetupBrowserCaching(cfg: Config, page: seq<Element>, storage: map<string, string>): (r: (seq<Element>, map<string, string>))
    ensures |r.0| == |page|
    ensures !cfg.enableCaching ==> r == (page, storage)
    ensures cfg.enableCaching ==>
      (forall i :: 0 <= i < |page| ==> r.0[i] == TagForCaching(page[i])) &&
      r.1 == storage["cacheControl" := CacheControl]
  {
    if cfg.enableCaching then (MapElements(page, TagForCaching), storage["cacheControl" := CacheControl])
    else (page, storage)
  }

  /** `link[rel="preload"][as="font"]` with a non-empty `href` */
  predicate IsFontPreload(e: Element) {
    e.tag == "link" && Attr(e, "rel") == Some("preload") && Attr(e, "as") == Some("font") && Truthy(Attr(e, "href"))
  }

  /** `preloadCriticalResources` on one element: a font preload is fetched
      with `crossorigin=""` */
  function PreloadFont(e: Element): (r: Element)
    ensures SameBut(e, r, {"crossorigin"})
    ensures IsFontPreload(e) ==> Attr(r, "crossorigin") == Some("")
    ensures !IsFontPreload(e) ==> r == e
  {
    if IsFontPreload(e) then SetAttr(e, "crossorigin", "")
    else e
  }

  // ---- The whole run ----

  /** The page and local storage after `runOptimizations` */
  datatype Effects = Effects(page: seq<Element>, storage: map<string, string>)

  /** What the steps after the image step make of one element: each step
      touches one element at a time, so the run over the page is this,
      element by element */
  function LaterElement(cfg: Config, native: bool, e: Element): Element {
    var lazy := if cfg.enableLazyLoading then LazyImage(e, native) else e;
    var css := if cfg.minifyCSS then MinifyStyle(lazy) else lazy;
    var deferred := if cfg.deferNonCriticalCSS then DeferStylesheet(css) else css;
    var cached := if cfg.enableCaching then TagForCaching(deferred) else deferred;
    PreloadFont(cached)
  }

  /** What the whole run makes of one element, the image step first */
  function ElementSteps(cfg: Config, native: bool, e: Element): Element {
    LaterElement(cfg, native, if cfg.enableImageOptimization then ResponsiveImage(e) else e)
  }

  /** The steps after the image step, in the order the script runs them */
  function LaterSteps(cfg: Config, page: seq<Element>, native: bool, storage: map<string, string>): (r: Effects)
    ensures |r.page| == |page|
    ensures forall i :: 0 <= i < |page| ==> r.page[i] == LaterElement(cfg, native, page[i])
    ensures r.storage == if cfg.enableCaching then storage["cacheControl" := CacheControl] else storage
  {
    var lazy := EnableLazyLoading(cfg, page, native);
    var css := OptimizeCss(cfg, lazy);
    var deferred := DeferNonCriticalCss(cfg, css);
    var (cached, stored) := SetupBrowserCaching(cfg, deferred, storage);
    Effects(MapElements(cached, PreloadFont), stored)
  }

  /** `runOptimizations` as written: when the image step throws, the steps
      after it never run, and the images before the throwing one keep their
      changes */
  function RunOptimizationsAsWritten(cfg: Config, page: seq<Element>, native: bool, storage: map<string, string>): (r: Effects)
    ensures |r.page| == |page|
    ensures cfg.enableImageOptimization && (exists j :: 0 <= j < |page| && Srcless(page[j])) ==>
      r.storage == storage &&
      forall j :: 0 <= j < |page| ==>
        r.page[j] == if j < FirstSrcless(page, 0) then ResponsiveImage(page[j]) else page[j]
    ensures !(cfg.enableImageOptimization && exists j :: 0 <= j < |page| && Srcless(page[j])) ==>
      forall j :: 0 <= j < |page| ==> r.page[j] == ElementSteps(cfg, native, page[j])
  {
    var images := OptimizeImagesAsWritten(cfg, page);
    if images.threw then Effects(images.page, storage) else LaterSteps(cfg, images.page, native, storage)
  }

  /** Every flagged step switched off: only the font preloads, which no flag
      guards, still run */
  predicate AllOff(cfg: Config) {
    !cfg.enableImageOptimization && !cfg.enableLazyLoading && !cfg.minifyCSS &&
    !cfg.deferNonCriticalCSS && !cfg.enableCaching
  }

  /** `runOptimizations` with the image step passing over images without a
      `src`: every step runs */
  function RunOptimizations(cfg: Config, page: seq<Element>, native: bool, storage: map<string, string>): (r: Effects)
    ensures |r.page| == |page|
    ensures cfg.enableCaching ==> r.storage == storage["cacheControl" := CacheControl]
    ensures !cfg.enableCaching ==> r.storage == storage
    ensures AllOff(cfg) ==> r == Effects(MapElements(page, PreloadFont), storage)
    ensures forall i :: 0 <= i < |page| ==> r.page[i] == ElementSteps(cfg, native, page[i])
  {
    LaterSteps(cfg, OptimizeImages(cfg, page), native, storage)
  }

  /** The two runs agree on every page without a `src`-less image */
  lemma {:induction false} RunsAgree(cfg: Config, page: seq<Element>, native: bool, storage: map<string, string>)
    requires forall j :: 0 <= j < |page| ==> !Srcless(page[j])
    ensures RunOptimizationsAsWritten(cfg, page, native, storage) == RunOptimizations(cfg, page, native, storage)
  {
  }

  /** An `<img>` with only a `data-src`, as lazy-loading libraries write it,
      followed by a style sheet: the run as written stops at the image, so
      the style sheet is neither deferred nor tagged and nothing is stored */
  lemma {:induction false} SrclessImageStopsRun()
    ensures var img := Element("img", map["data-src" := "a.jpg"], "");
      var css := Element("link", map["rel" := "stylesheet", "href" := "theme.css"], "");
      var r := RunOptimizationsAsWritten(DefaultConfig, [img, css], false, map[]);
      r.page == [img, css] && r.storage == map[] &&
      RunOptimizations(DefaultConfig, [img, css], false, map[]).storage == map["cacheControl" := CacheControl]
  {
    var img := Element("img", map["data-src" := "a.jpg"], "");
    assert Srcless(img);
  }
}

=== FILE: script_injector.dfy ===
/** The script injector's install and uninstall workflows: find the shop's
    active theme, fetch its layout template, patch it, and write it back.

    Each call to the platform is modelled by the reply it comes back with,
    given as a parameter; the model records the requests the workflow makes
    and whether it reports success. */
module ScriptInjector {
  import opened Wrappers
  import opened ThemePatch

  /** A theme of the shop, as listed by the platform */
  datatype Theme = Theme(id: string, name: string, role: string)

  /** The role of the theme the shop is published with */
  const MainRole: string := "main"

  /** The asset key of the layout template every storefront page uses */
  const LayoutKey: string := "layout/theme.liquid"

  /** What a call to the platform came back with: a response whose status is
      ok, with its decoded body; a response whose status is not ok; or an
      error thrown while sending the request or decoding its body */
  datatype Reply<T> = Ok(body: T) | NotOk(statusText: string) | Thrown

  /** Why the active theme could not be determined */
  datatype ThemeError = ThemesRequestFailed(statusText: string) | ThemesRequestThrew | NoActiveTheme

  /** The requests a workflow sends, in order */
  datatype Request =
    | ListThemes
    | GetAsset(themeId: string, key: string)
    | PutAsset(themeId: string, key: string, value: string)

  /** The platform's replies to the three calls of a workflow */
  datatype Platform = Platform(themes: Reply<seq<Theme>>, asset: Reply<string>, update: Reply<()>)

  /** The requests sent and the boolean the workflow returns */
  datatype Outcome = Outcome(requests: seq<Request>, succeeded: bool)

  /** `themes[i]` is the first theme in the list whose role is the main role */
  predicate FirstMain(themes: seq<Theme>, i: nat) {
    i < |themes| && themes[i].role == MainRole && forall j :: 0 <= j < i ==> themes[j].role != MainRole
  }

  /** `themes.find(theme => theme.role === 'main')`, and its id; the search
      fails exactly when no theme has the main role */
  function ActiveThemeId(themes: seq<Theme>): (r: Result<string, ThemeError>)
    ensures r.Failure? <==> forall i :: 0 <= i < |themes| ==> themes[i].role != MainRole
    ensures r.Failure? ==> r.error == NoActiveTheme
    ensures r.Success? ==> exists i: nat :: FirstMain(themes, i) && themes[i].id == r.value
  {
    if |themes| == 0 then Failure(NoActiveTheme)
    else if themes[0].role == MainRole then
      assert FirstMain(themes, 0);
      Success(themes[0].id)
    else
      var r := ActiveThemeId(themes[1..]);
      assert forall i :: 1 <= i < |themes| ==> themes[i] == themes[1..][i - 1];
      if r.Success? then
        var i: nat :| FirstMain(themes[1..], i) && themes[1..][i].id == r.value;
        assert FirstMain(themes, i + 1);
        r
      else
        r
  }

  /** The id found is the one of the first main theme, whichever it is */
  lemma {:induction false} ActiveThemeIdIs(themes: seq<Theme>, i: nat)
    requires FirstMain(themes, i)
    ensures ActiveThemeId(themes) == Success(themes[i].id)
    decreases i
  {
    if i > 0 {
      assert FirstMain(themes[1..], i - 1);
      ActiveThemeIdIs(themes[1..], i - 1);
    }
  }

  /** `getActiveThemeId`: the theme list must come back ok and hold a main
      theme */
  function GetActiveThemeId(reply: Reply<seq<Theme>>): (r: Result<string, ThemeError>)
    ensures r.Success? <==> reply.Ok? && exists i :: 0 <= i < |reply.body| && reply.body[i].role == MainRole
    ensures reply.NotOk? ==> r == Failure(ThemesRequestFailed(reply.statusText))
    ensures reply.Ok? ==> r == ActiveThemeId(reply.body)
  {
    match reply
    case Ok(themes) => ActiveThemeId(themes)
    case NotOk(status) => Failure(ThemesRequestFailed(status))
    case Thrown => Failure(ThemesRequestThrew)
  }

  /** The shared shape of both workflows: find the active theme, fetch its
      layout template, and write back `patch` of it; any failed step ends
      the workflow with `false`, and nothing is sent after it */
  function PatchLayout(p: Platform, patch: string -> string): (o: Outcome)
    ensures o.succeeded <==> GetActiveThemeId(p.themes).Success? && p.asset.Ok? && p.update.Ok?
    ensures |o.requests| >= 1 && o.requests[0] == ListThemes
    ensures GetActiveThemeId(p.themes).Failure? ==> o.requests == [ListThemes]
    ensures GetActiveThemeId(p.themes).Success? ==>
      |o.requests| >= 2 && o.requests[1] == GetAsset(GetActiveThemeId(p.themes).value, LayoutKey)
    ensures forall r :: r in o.requests && r.PutAsset? ==>
      GetActiveThemeId(p.themes).Success? && p.asset.Ok? &&
      r == PutAsset(GetActiveThemeId(p.themes).value, LayoutKey, patch(p.asset.body))
    ensures |o.requests| <= 3
  {
    match GetActiveThemeId(p.themes)
    case Failure(_) => Outcome([ListThemes], false)
    case Success(id) =>
      var fetch := [ListThemes, GetAsset(id, LayoutKey)];
      match p.asset
      case Ok(template) => Outcome(fetch + [PutAsset(id, LayoutKey, patch(template))], p.update.Ok?)
      case _ => Outcome(fetch, false)
  }

  /** `injectOptimizationScript`: the layout template of the active theme is
      written back with the optimization block injected */
  function InjectOptimizationScript(p: Platform, script: string): (o: Outcome)
    ensures o.succeeded <==> GetActiveThemeId(p.themes).Success? && p.asset.Ok? && p.update.Ok?
    ensures o.succeeded ==> (
      var id := GetActiveThemeId(p.themes).value;
      o.requests == [ListThemes, GetAsset(id, LayoutKey), PutAsset(id, LayoutKey, Inject(p.asset.body, script))])
  {
    PatchLayout(p, t => Inject(t, script))
  }

  /** `removeOptimizationScript`: the layout template of the active theme is
      written back with every optimization block removed */
  function RemoveOptimizationScript(p: Platform): (o: Outcome)
    ensures o.succeeded <==> GetActiveThemeId(p.themes).Success? && p.asset.Ok? && p.update.Ok?
    ensures o.succeeded ==> (
      var id := GetActiveThemeId(p.themes).value;
      o.requests == [ListThemes, GetAsset(id, LayoutKey), PutAsset(id, LayoutKey, Remove(p.asset.body))])
  {
    PatchLayout(p, Remove)
  }
}

=== FILE: strings.dfy ===
/** The JavaScript string operations the modelled code relies on, over
    `seq<char>`:
    - first-occurrence search (`indexOf`, `includes`);
    - `replace` with a string pattern, which replaces only the first
      occurrence and expands the `$` patterns of the replacement template
      (GetSubstitution, section 22.1.3.19.1 of ECMA-262);
    - the global deletion `t.replace(/open[\s\S]*?close/g, '')`, together with
      a position-by-position reference of how the regex matcher proceeds.
 */
module Strings {
  import opened Wrappers

  /** `p` occurs in `s` starting at index `i` */
  predicate OccursAt(s: string, p: string, i: nat) {
    i + |p| <= |s| && s[i..i + |p|] == p
  }

  /** `i` is the index of the first occurrence of `p` in `s` at or after index `k` */
  ghost predicate FirstFrom(s: string, p: string, k: nat, i: nat) {
    k <= i && OccursAt(s, p, i) && forall j: nat :: k <= j < i ==> !OccursAt(s, p, j)
  }

  /** `p` does not occur in `s` at or after index `k` */
  ghost predicate NoneFrom(s: string, p: string, k: nat) {
    forall j: nat :: k <= j ==> !OccursAt(s, p, j)
  }

  /** `i` is the index of the first occurrence of `p` in `s` */
  ghost predicate FirstOccurrence(s: string, p: string, i: nat) {
    FirstFrom(s, p, 0, i)
  }

  /** `p` does not occur in `s` at all */
  ghost predicate Absent(s: string, p: string) {
    NoneFrom(s, p, 0)
  }

  /** The search for `p` in `s` from index `k`, one position after the other;
      what it finds is stated by the lemmas below */
  function FindFrom(s: string, p: string, k: nat): (r: Option<nat>)
    ensures r.Some? ==> k <= r.value && r.value + |p| <= |s|
    decreases |s| - k
  {
    if k + |p| > |s| then None
    else if MatchFrom(s, p, k, 0) then Some(k)
    else FindFrom(s, p, k + 1)
  }

  /** `p[j..]` is found in `s` at index `i + j`, compared one character after
      the other */
  predicate MatchFrom(s: string, p: string, i: nat, j: nat)
    decreases |p| - j
  {
    j >= |p| || (i + j < |s| && s[i + j] == p[j] && MatchFrom(s, p, i, j + 1))
  }

  /** The character comparison agrees with the slice comparison */
  lemma {:induction false} MatchFromIff(s: string, p: string, i: nat, j: nat)
    requires i + |p| <= |s| && j <= |p|
    ensures MatchFrom(s, p, i, j) <==> s[i + j..i + |p|] == p[j..]
    decreases |p| - j
  {
    if j < |p| {
      MatchFromIff(s, p, i, j + 1);
      assert s[i + j..i + |p|] == [s[i + j]] + s[i + j + 1..i + |p|];
      assert p[j..] == [p[j]] + p[j + 1..];
    }
  }

  /** So the search tests exactly `OccursAt` at each index */
  lemma {:induction false} MatchIsOccurs(s: string, p: string, i: nat)
    requires i + |p| <= |s|
    ensures MatchFrom(s, p, i, 0) <==> OccursAt(s, p, i)
  {
    MatchFromIff(s, p, i, 0);
    assert p[0..] == p;
  }

  /** A found index is the first occurrence from `k` */
  lemma {:induction false} FindFromFirst(s: string, p: string, k: nat)
    requires FindFrom(s, p, k).Some?
    ensures FirstFrom(s, p, k, FindFrom(s, p, k).value)
    decreases |s| - k
  {
    if k + |p| <= |s| {
      MatchIsOccurs(s, p, k);
      if !OccursAt(s, p, k) {
        FindFromFirst(s, p, k + 1);
      }
    }
  }

  /** A failed search means no occurrence from `k` */
  lemma {:induction false} FindFromAbsent(s: string, p: string, k: nat)
    requires FindFrom(s, p, k).None?
    ensures NoneFrom(s, p, k)
    decreases |s| - k
  {
    if k + |p| <= |s| {
      MatchIsOccurs(s, p, k);
      FindFromAbsent(s, p, k + 1);
    }
  }

  /** Conversely, the first occurrence from `k` is what the search finds */
  lemma {:induction false} FindFromIs(s: string, p: string, k: nat, i: nat)
    requires FirstFrom(s, p, k, i)
    ensures FindFrom(s, p, k) == Some(i)
    decreases i - k
  {
    MatchIsOccurs(s, p, k);
    if k < i {
      assert !OccursAt(s, p, k);
      FindFromIs(s, p, k + 1, i);
    }
  }

  /** ... and without an occurrence from `k` the search fails */
  lemma {:induction false} FindFromNone(s: string, p: string, k: nat)
    requires NoneFrom(s, p, k)
    ensures FindFrom(s, p, k) == None
    decreases |s| - k
  {
    if k + |p| <= |s| {
      MatchIsOccurs(s, p, k);
      assert !OccursAt(s, p, k);
      FindFromNone(s, p, k + 1);
    }
  }

  /** `s.indexOf(p)`, with `None` for -1 */
  function IndexOf(s: string, p: string): (r: Option<nat>)
    ensures r.Some? ==> r.value + |p| <= |s|
  {
    FindFrom(s, p, 0)
  }

  /** `s.includes(p)` */
  predicate Contains(s: string, p: string) {
    IndexOf(s, p).Some?
  }

  /** `indexOf` gives the first occurrence, or -1 exactly when there is none */
  lemma {:induction false} IndexOfMeans(s: string, p: string)
    ensures IndexOf(s, p).Some? ==> FirstOccurrence(s, p, IndexOf(s, p).value)
    ensures IndexOf(s, p).None? <==> Absent(s, p)
  {
    if IndexOf(s, p).Some? {
      FindFromFirst(s, p, 0);
      assert OccursAt(s, p, IndexOf(s, p).value);
    } else {
      FindFromAbsent(s, p, 0);
    }
  }

  lemma {:induction false} IndexOfIs(s: string, p: string, i: nat)
    requires FirstOccurrence(s, p, i)
    ensures IndexOf(s, p) == Some(i)
  {
    FindFromIs(s, p, 0, i);
  }

  lemma {:induction false} IndexOfNone(s: string, p: string)
    requires Absent(s, p)
    ensures IndexOf(s, p) == None
  {
    FindFromNone(s, p, 0);
  }

  lemma {:induction false} ContainsIffOccurs(s: string, p: string)
    ensures Contains(s, p) <==> exists i: nat :: OccursAt(s, p, i)
  {
    IndexOfMeans(s, p);
  }

  /** Occurrences lying wholly inside one side of a concatenation */
  lemma {:induction false} OccursInConcat(x: string, y: string, p: string, i: nat)
    ensures i + |p| <= |x| ==> (OccursAt(x + y, p, i) <==> OccursAt(x, p, i))
    ensures |x| <= i ==> (OccursAt(x + y, p, i) <==> OccursAt(y, p, i - |x|))
  {
    if i + |p| <= |x| {
      assert (x + y)[i..i + |p|] == x[i..i + |p|];
    }
    if |x| <= i && i + |p| <= |x| + |y| {
      assert (x + y)[i..i + |p|] == y[i - |x|..i - |x| + |p|];
    }
  }

  /** An occurrence of `p` cannot cover a character that `p` does not contain */
  lemma {:induction false} NotAcross(s: string, p: string, i: nat, k: nat)
    requires i <= k < i + |p| && k < |s| && s[k] !in p
    ensures !OccursAt(s, p, i)
  {
    if i + |p| <= |s| {
      assert s[i..i + |p|][k - i] == s[k];
    }
  }

  /** No occurrence of `p` in `x + [c] + y` starts at or before `|x|` when
      `x` has none and `p` lacks `c` */
  lemma {:induction false} NoneUpToSeparator(x: string, c: char, y: string, p: string, j: nat)
    requires c !in p && Absent(x, p) && j <= |x|
    ensures !OccursAt(x + [c] + y, p, j)
  {
    if j + |p| <= |x| {
      assert x + [c] + y == x + ([c] + y);
      OccursInConcat(x, [c] + y, p, j);
    } else {
      NotAcross(x + [c] + y, p, j, |x|);
    }
  }

  /** The first occurrence in `x` is the first one in `x + [c] + y` */
  lemma {:induction false} IndexOfBeforeSeparator(x: string, c: char, y: string, p: string, i: nat)
    requires FirstOccurrence(x, p, i)
    ensures IndexOf(x + [c] + y, p) == Some(i)
  {
    var w := x + [c] + y;
    assert w == x + ([c] + y);
    OccursInConcat(x, [c] + y, p, i);
    forall j: nat | j < i
      ensures !OccursAt(w, p, j)
    {
      OccursInConcat(x, [c] + y, p, j);
    }
    IndexOfIs(w, p, i);
  }

  /** Without one in `x`, the first occurrence in `y` is the first one in
      `x + [c] + y` */
  lemma {:induction false} IndexOfAfterSeparator(x: string, c: char, y: string, p: string, i: nat)
    requires c !in p && Absent(x, p) && FirstOccurrence(y, p, i)
    ensures IndexOf(x + [c] + y, p) == Some(|x| + 1 + i)
  {
    var w := x + [c] + y;
    OccursInConcat(x + [c], y, p, |x| + 1 + i);
    forall j: nat | j < |x| + 1 + i
      ensures !OccursAt(w, p, j)
    {
      if j <= |x| {
        NoneUpToSeparator(x, c, y, p, j);
      } else {
        OccursInConcat(x + [c], y, p, j);
      }
    }
    IndexOfIs(w, p, |x| + 1 + i);
  }

  /** With none in either part there is none in `x + [c] + y` */
  lemma {:induction false} IndexOfNeitherSide(x: string, c: char, y: string, p: string)
    requires c !in p && Absent(x, p) && Absent(y, p)
    ensures IndexOf(x + [c] + y, p) == None
  {
    var w := x + [c] + y;
    forall j: nat
      ensures !OccursAt(w, p, j)
    {
      if j <= |x| {
        NoneUpToSeparator(x, c, y, p, j);
      } else {
        OccursInConcat(x + [c], y, p, j);
      }
    }
    IndexOfNone(w, p);
  }

  /** A character that `p` lacks splits the search: the first occurrence in
      `x + [c] + y` is the first one in `x`, or else the first one in `y`. */
  lemma {:induction false} IndexOfAroundSeparator(x: string, c: char, y: string, p: string)
    requires c !in p
    ensures IndexOf(x + [c] + y, p) ==
      if IndexOf(x, p).Some? then IndexOf(x, p)
      else if IndexOf(y, p).Some? then Some(|x| + 1 + IndexOf(y, p).value)
      else None
  {
    IndexOfMeans(x, p);
    IndexOfMeans(y, p);
    if IndexOf(x, p).Some? {
      IndexOfBeforeSeparator(x, c, y, p, IndexOf(x, p).value);
    } else if IndexOf(y, p).Some? {
      IndexOfAfterSeparator(x, c, y, p, IndexOf(y, p).value);
    } else {
      IndexOfNeitherSide(x, c, y, p);
    }
  }

  /** An occurrence found in the suffix is the one found from the end of the prefix */
  lemma {:induction false} FindFromOffsetSome(x: string, y: string, p: string, k: nat, i: nat)
    requires FirstFrom(y, p, k, i)
    ensures FindFrom(x + y, p, |x| + k) == Some(|x| + i)
  {
    OccursInConcat(x, y, p, |x| + i);
    forall j: nat | |x| + k <= j < |x| + i
      ensures !OccursAt(x + y, p, j)
    {
      OccursInConcat(x, y, p, j);
    }
    FindFromIs(x + y, p, |x| + k, |x| + i);
  }

  /** No occurrence in the suffix, none after the prefix */
  lemma {:induction false} FindFromOffsetNone(x: string, y: string, p: string, k: nat)
    requires NoneFrom(y, p, k)
    ensures FindFrom(x + y, p, |x| + k) == None
  {
    forall j: nat | |x| + k <= j
      ensures !OccursAt(x + y, p, j)
    {
      OccursInConcat(x, y, p, j);
    }
    FindFromNone(x + y, p, |x| + k);
  }

  /** Searching from the end of a prefix is searching the suffix */
  lemma {:induction false} FindFromOffset(x: string, y: string, p: string, k: nat)
    ensures FindFrom(x + y, p, |x| + k) ==
      if FindFrom(y, p, k).Some? then Some(|x| + FindFrom(y, p, k).value) else None
  {
    if FindFrom(y, p, k).Some? {
      FindFromFirst(y, p, k);
      FindFromOffsetSome(x, y, p, k, FindFrom(y, p, k).value);
    } else {
      FindFromAbsent(y, p, k);
      FindFromOffsetNone(x, y, p, k);
    }
  }

  /** The replacement text `String.prototype.replace` builds from a template
      when the pattern is a string (GetSubstitution without captures): `$$`
      is a dollar sign, `$&` the matched text, `` $` `` the text before the
      match and `$'` the text after it; every other character, a `$` that
      starts none of these included, is copied. */
  function Substitute(template: string, matched: string, before: string, after: string): (r: string)
    ensures '$' !in template ==> r == template
    decreases |template|
  {
    if |template| == 0 then ""
    else if template[0] == '$' && 2 <= |template| && template[1] == '$' then
      "$" + Substitute(template[2..], matched, before, after)
    else if template[0] == '$' && 2 <= |template| && template[1] == '&' then
      matched + Substitute(template[2..], matched, before, after)
    else if template[0] == '$' && 2 <= |template| && template[1] == '`' then
      before + Substitute(template[2..], matched, before, after)
    else if template[0] == '$' && 2 <= |template| && template[1] == '\'' then
      after + Substitute(template[2..], matched, before, after)
    else
      [template[0]] + Substitute(template[1..], matched, before, after)
  }

  /** `s.replace(pattern, template)` for a string pattern: the first
      occurrence, and only that one, is replaced by the expanded template */
  function ReplaceFirst(s: string, pattern: string, template: string): (r: string)
    ensures IndexOf(s, pattern).None? ==> r == s
  {
    match IndexOf(s, pattern)
    case None => s
    case Some(i) =>
      s[..i] + Substitute(template, pattern, s[..i], s[i + |pattern|..]) + s[i + |pattern|..]
  }

  /** With a template free of `$`, the first occurrence, and only that one,
      is replaced by the template itself */
  lemma {:induction false} ReplaceFirstAt(s: string, pattern: string, template: string, i: nat)
    requires FirstOccurrence(s, pattern, i) && '$' !in template
    ensures ReplaceFirst(s, pattern, template) == s[..i] + template + s[i + |pattern|..]
  {
    IndexOfIs(s, pattern, i);
  }

  /** A match of `open[\s\S]*?close` can start at index `j` */
  ghost predicate SpanAt(t: string, open: string, close: string, j: nat) {
    OccursAt(t, open, j) && exists x: nat :: j + |open| <= x && OccursAt(t, close, x)
  }

  /** Some match of `open[\s\S]*?close` starts at or after index `k` */
  ghost predicate HasSpanFrom(t: string, open: string, close: string, k: nat) {
    exists j: nat :: k <= j && SpanAt(t, open, close, j)
  }

  /** The leftmost match of `open[\s\S]*?close` from index `k`, as the
      indices of its `open` and of its `close`: the match begins at the first
      `open` and its lazy body ends at the first `close` after that `open`.
      When that `open` has no `close` after it, there is no match at all,
      since no later `open` has one either. */
  function NextSpan(t: string, open: string, close: string, k: nat): (r: Option<(nat, nat)>)
    ensures r.Some? ==> k <= r.value.0 && r.value.0 + |open| <= r.value.1 && r.value.1 + |close| <= |t|
  {
    match FindFrom(t, open, k)
    case None => None
    case Some(p) =>
      match FindFrom(t, close, p + |open|)
      case None => None
      case Some(q) => Some((p, q))
  }

  /** `t.substring(k).replace(/open[\s\S]*?close/g, '')`: every leftmost
      match deleted, the rest kept */
  function DeleteFrom(t: string, open: string, close: string, k: nat): string
    requires k <= |t| && |open| > 0
    decreases |t| - k, 1
  {
    DeleteStep(t, open, close, k)
  }

  /** One step of the deletion: keep the text up to the next span, drop the
      span, and go on after it. Stated apart from `DeleteFrom` so that the
      verifier opens one step of the deletion only when a proof asks for it. */
  function DeleteStep(t: string, open: string, close: string, k: nat): string
    requires k <= |t| && |open| > 0
    decreases |t| - k, 0
  {
    match NextSpan(t, open, close, k)
    case None => t[k..]
    case Some((p, q)) => t[k..p] + DeleteFrom(t, open, close, q + |close|)
  }

  /** The deletion never lengthens the text */
  lemma {:induction false} DeleteFromShrinks(t: string, open: string, close: string, k: nat)
    requires k <= |t| && |open| > 0
    ensures |DeleteFrom(t, open, close, k)| <= |t| - k
    decreases |t| - k
  {
    match NextSpan(t, open, close, k)
    case None =>
    case Some((p, q)) =>
      DeleteFromSpan(t, open, close, k, p, q);
      DeleteFromShrinks(t, open, close, q + |close|);
      assert |t[k..p] + DeleteFrom(t, open, close, q + |close|)| == p - k + |DeleteFrom(t, open, close, q + |close|)|;
  }

  /** The search results that make up the next span */
  lemma {:induction false} NextSpanIs(t: string, open: string, close: string, k: nat, p: nat, q: nat)
    requires NextSpan(t, open, close, k) == Some((p, q))
    ensures FindFrom(t, open, k) == Some(p) && FindFrom(t, close, p + |open|) == Some(q)
  {
  }

  /** The deletion keeps the text before the next span and goes on after it */
  lemma {:induction false} DeleteFromSpan(t: string, open: string, close: string, k: nat, p: nat, q: nat)
    requires k <= |t| && |open| > 0 && NextSpan(t, open, close, k) == Some((p, q))
    ensures DeleteFrom(t, open, close, k) == t[k..p] + DeleteFrom(t, open, close, q + |close|)
  {
  }

  /** The same step, from the two searches */
  lemma {:induction false} DeleteFromStep(t: string, open: string, close: string, k: nat, p: nat, q: nat)
    requires k <= |t| && |open| > 0
    requires FindFrom(t, open, k) == Some(p) && FindFrom(t, close, p + |open|) == Some(q)
    ensures q + |close| <= |t|
    ensures DeleteFrom(t, open, close, k) == t[k..p] + DeleteFrom(t, open, close, q + |close|)
  {
    assert NextSpan(t, open, close, k) == Some((p, q));
    DeleteFromSpan(t, open, close, k, p, q);
  }

  /** Without a next span the deletion keeps the rest of the text */
  lemma {:induction false} DeleteFromKeeps(t: string, open: string, close: string, k: nat)
    requires k <= |t| && |open| > 0 && NextSpan(t, open, close, k).None?
    ensures DeleteFrom(t, open, close, k) == t[k..]
  {
  }

  /** A next span is a match, and deleting it shortens the text */
  lemma {:induction false} SpanShortens(t: string, open: string, close: string, k: nat, p: nat, q: nat)
    requires k <= |t| && |open| > 0 && NextSpan(t, open, close, k) == Some((p, q))
    ensures SpanAt(t, open, close, p)
    ensures |DeleteFrom(t, open, close, k)| < |t| - k
  {
    assert SpanAt(t, open, close, p) by {
      NextSpanIs(t, open, close, k, p, q);
      FindFromFirst(t, open, k);
      FindFromFirst(t, close, p + |open|);
    }
    assert |DeleteFrom(t, open, close, q + |close|)| <= |t| - (q + |close|) by {
      DeleteFromShrinks(t, open, close, q + |close|);
    }
    assert DeleteFrom(t, open, close, k) == t[k..p] + DeleteFrom(t, open, close, q + |close|) by {
      DeleteFromSpan(t, open, close, k, p, q);
    }
  }

  /** The deletion changes the text exactly when some match exists: it keeps
      the text when no `open` is followed by a `close`, and otherwise removes
      at least one whole span. */
  lemma {:induction false} DeleteFromChangesIffSpan(t: string, open: string, close: string, k: nat)
    requires k <= |t| && |open| > 0
    ensures DeleteFrom(t, open, close, k) == t[k..] <==> !HasSpanFrom(t, open, close, k)
  {
    match NextSpan(t, open, close, k)
    case None =>
      DeleteFromKeeps(t, open, close, k);
      NoSpanWithoutNext(t, open, close, k);
    case Some((p, q)) =>
      SpanShortens(t, open, close, k, p, q);
  }

  /** Without a next span nothing matches from `k`: either no `open` is left,
      or the first one has no `close` after it and then no later one has */
  lemma {:induction false} NoSpanWithoutNext(t: string, open: string, close: string, k: nat)
    requires NextSpan(t, open, close, k).None?
    ensures !HasSpanFrom(t, open, close, k)
  {
    match FindFrom(t, open, k)
    case None =>
      FindFromAbsent(t, open, k);
    case Some(p) =>
      FindFromFirst(t, open, k);
      FindFromAbsent(t, close, p + |open|);
      forall j: nat | k <= j && OccursAt(t, open, j)
        ensures !SpanAt(t, open, close, j)
      {
        assert p <= j;
      }
  }

  /** End index of the match of `open[\s\S]*?close` that starts exactly at
      `j`, if there is one */
  function MatchEndAt(t: string, open: string, close: string, j: nat): (r: Option<nat>)
    ensures r.Some? ==> j + |open| + |close| <= r.value <= |t|
  {
    if OccursAt(t, open, j) then
      match FindFrom(t, close, j + |open|)
      case Some(q) => Some(q + |close|)
      case None => None
    else None
  }

  /** Reference semantics of the global replace with an empty replacement,
      position by position as the matcher advances: try a match at the
      current position; on success skip it, otherwise keep one character and
      try the next position. */
  function ScanFrom(t: string, open: string, close: string, i: nat): string
    requires i <= |t| && |open| > 0
    decreases |t| - i, 1
  {
    ScanStep(t, open, close, i)
  }

  /** One position of the scan, apart from `ScanFrom` for the same reason as
      `DeleteStep` */
  function ScanStep(t: string, open: string, close: string, i: nat): string
    requires i <= |t| && |open| > 0
    decreases |t| - i, 0
  {
    if i == |t| then ""
    else
      match MatchEndAt(t, open, close, i)
      case Some(e) => ScanFrom(t, open, close, e)
      case None => [t[i]] + ScanFrom(t, open, close, i + 1)
  }

  /** Positions where no match starts are copied by the scan */
  lemma {:induction false} ScanKeeps(t: string, open: string, close: string, k: nat, p: nat)
    requires k <= p <= |t| && |open| > 0
    requires forall j: nat :: k <= j < p ==> MatchEndAt(t, open, close, j).None?
    ensures ScanFrom(t, open, close, k) == t[k..p] + ScanFrom(t, open, close, p)
    decreases p - k
  {
    if k < p {
      ScanCopies(t, open, close, k);
      ScanKeeps(t, open, close, k + 1, p);
      ConsSlice(t, k, p, ScanFrom(t, open, close, p));
    }
  }

  lemma {:induction false} ConsSlice(t: string, k: nat, p: nat, d: string)
    requires k < p <= |t|
    ensures [t[k]] + (t[k + 1..p] + d) == t[k..p] + d
  {
    assert t[k..p] == [t[k]] + t[k + 1..p];
  }

  /** Where no match starts, the scan copies one character and goes on */
  lemma {:induction false} ScanCopies(t: string, open: string, close: string, i: nat)
    requires i < |t| && |open| > 0 && MatchEndAt(t, open, close, i).None?
    ensures ScanFrom(t, open, close, i) == [t[i]] + ScanFrom(t, open, close, i + 1)
  {
  }

  /** Without a next span no match starts anywhere from `k` */
  lemma {:induction false} NoMatchWithoutNext(t: string, open: string, close: string, k: nat)
    requires NextSpan(t, open, close, k).None?
    ensures forall j: nat :: k <= j ==> MatchEndAt(t, open, close, j).None?
  {
    match FindFrom(t, open, k)
    case None =>
      FindFromAbsent(t, open, k);
    case Some(p) =>
      FindFromFirst(t, open, k);
      FindFromAbsent(t, close, p + |open|);
      forall j: nat | k <= j
        ensures MatchEndAt(t, open, close, j).None?
      {
        if OccursAt(t, open, j) {
          FindFromNone(t, close, j + |open|);
        }
      }
  }

  /** Where no match is left from `k`, both keep the rest of the text */
  lemma {:induction false} NoSpanScan(t: string, open: string, close: string, k: nat)
    requires k <= |t| && |open| > 0 && NextSpan(t, open, close, k).None?
    ensures DeleteFrom(t, open, close, k) == ScanFrom(t, open, close, k)
  {
    NoMatchWithoutNext(t, open, close, k);
    ScanKeeps(t, open, close, k, |t|);
    DeleteFromKeeps(t, open, close, k);
    assert t[k..|t|] + ScanFrom(t, open, close, |t|) == t[k..];
  }

  /** The scan copies the text up to the next span and then skips it */
  lemma {:induction false} SpanScan(t: string, open: string, close: string, k: nat, p: nat, q: nat)
    requires k <= |t| && |open| > 0 && NextSpan(t, open, close, k) == Some((p, q))
    ensures ScanFrom(t, open, close, k) == t[k..p] + ScanFrom(t, open, close, q + |close|)
  {
    NextSpanIs(t, open, close, k, p, q);
    FindFromFirst(t, open, k);
    forall j: nat | k <= j < p
      ensures MatchEndAt(t, open, close, j).None?
    {
    }
    ScanKeeps(t, open, close, k, p);
    assert MatchEndAt(t, open, close, p) == Some(q + |close|);
  }

  /** The recursive deletion agrees with the matcher's scan */
  lemma {:induction false} DeleteFromIsScan(t: string, open: string, close: string, k: nat)
    requires k <= |t| && |open| > 0
    ensures DeleteFrom(t, open, close, k) == ScanFrom(t, open, close, k)
    decreases |t| - k
  {
    match NextSpan(t, open, close, k)
    case None =>
      NoSpanScan(t, open, close, k);
    case Some((p, q)) =>
      SpanScan(t, open, close, k, p, q);
      DeleteFromSpan(t, open, close, k, p, q);
      DeleteFromIsScan(t, open, close, q + |close|);
  }

  // ---- Deletion over a concatenation ----

  /** A search that starts past a prefix only sees what follows it, so the
      next span is the one of the rest, shifted */
  lemma {:induction false} NextSpanOffset(x: string, v: string, open: string, close: string, k: nat)
    ensures NextSpan(v, open, close, k).None? ==> NextSpan(x + v, open, close, |x| + k).None?
    ensures NextSpan(v, open, close, k).Some? ==>
      NextSpan(x + v, open, close, |x| + k) ==
        Some((|x| + NextSpan(v, open, close, k).value.0, |x| + NextSpan(v, open, close, k).value.1))
  {
    FindFromOffset(x, v, open, k);
    if FindFrom(v, open, k).Some? {
      FindFromOffset(x, v, close, FindFrom(v, open, k).value + |open|);
    }
  }

  /** Deleting from past a prefix is deleting from the rest */
  lemma {:induction false} DeleteFromOffset(x: string, v: string, open: string, close: string, k: nat)
    requires k <= |v| && |open| > 0
    ensures DeleteFrom(x + v, open, close, |x| + k) == DeleteFrom(v, open, close, k)
    decreases |v| - k
  {
    NextSpanOffset(x, v, open, close, k);
    if NextSpan(v, open, close, k).None? {
      OffsetNone(x, v, open, close, k);
    } else {
      var p, q := NextSpan(v, open, close, k).value.0, NextSpan(v, open, close, k).value.1;
      DeleteFromOffset(x, v, open, close, q + |close|);
      OffsetSome(x, v, open, close, k, p, q);
    }
  }

  lemma {:induction false} OffsetNone(x: string, v: string, open: string, close: string, k: nat)
    requires k <= |v| && |open| > 0
    requires NextSpan(v, open, close, k).None? && NextSpan(x + v, open, close, |x| + k).None?
    ensures DeleteFrom(x + v, open, close, |x| + k) == DeleteFrom(v, open, close, k)
  {
    DeleteFromKeeps(x + v, open, close, |x| + k);
    DeleteFromKeeps(v, open, close, k);
    assert (x + v)[|x| + k..] == v[k..];
  }

  lemma {:induction false} OffsetSome(x: string, v: string, open: string, close: string, k: nat, p: nat, q: nat)
    requires k <= |v| && |open| > 0
    requires NextSpan(v, open, close, k) == Some((p, q))
    requires NextSpan(x + v, open, close, |x| + k) == Some((|x| + p, |x| + q))
    requires q + |close| <= |v|
    requires DeleteFrom(x + v, open, close, |x| + (q + |close|)) == DeleteFrom(v, open, close, q + |close|)
    ensures DeleteFrom(x + v, open, close, |x| + k) == DeleteFrom(v, open, close, k)
  {
    DeleteFromSpan(x + v, open, close, |x| + k, |x| + p, |x| + q);
    DeleteFromSpan(v, open, close, k, p, q);
    SliceOfSuffix(x, v, k, p);
  }

  /** A stretch of the second part of a concatenation, found by offset */
  lemma {:induction false} SliceOfSuffix(x: string, v: string, i: nat, j: nat)
    requires i <= j <= |v|
    ensures (x + v)[|x| + i..|x| + j] == v[i..j]
  {
    assert forall n :: 0 <= n < j - i ==> (x + v)[|x| + i..|x| + j][n] == v[i..j][n];
  }

  /** With no occurrence in `[k, k2)`, searching from `k` is searching from `k2` */
  lemma {:induction false} FindFromSkip(s: string, p: string, k: nat, k2: nat)
    requires k <= k2 && forall j: nat :: k <= j < k2 ==> !OccursAt(s, p, j)
    ensures FindFrom(s, p, k) == FindFrom(s, p, k2)
    decreases k2 - k
  {
    if k < k2 {
      if k + |p| > |s| {
        assert FindFrom(s, p, k2) == None;
      } else {
        MatchIsOccurs(s, p, k);
        assert !OccursAt(s, p, k);
        FindFromSkip(s, p, k + 1, k2);
      }
    }
  }

  /** The next span depends on the search for `open` only through what it finds */
  lemma {:induction false} NextSpanSkip(t: string, open: string, close: string, k: nat, k2: nat)
    requires FindFrom(t, open, k) == FindFrom(t, open, k2)
    ensures NextSpan(t, open, close, k) == NextSpan(t, open, close, k2)
  {
  }

  /** Two starting points with the same next span delete alike, up to the
      stretch between them */
  lemma {:induction false} SameSpanDeletes(t: string, open: string, close: string, k: nat, k2: nat)
    requires k <= k2 <= |t| && |open| > 0
    requires NextSpan(t, open, close, k) == NextSpan(t, open, close, k2)
    ensures DeleteFrom(t, open, close, k) == t[k..k2] + DeleteFrom(t, open, close, k2)
  {
    if NextSpan(t, open, close, k2).None? {
      SameSpanNone(t, open, close, k, k2);
    } else {
      var p, q := NextSpan(t, open, close, k2).value.0, NextSpan(t, open, close, k2).value.1;
      SameSpanSome(t, open, close, k, k2, p, q);
    }
  }

  lemma {:induction false} SameSpanNone(t: string, open: string, close: string, k: nat, k2: nat)
    requires k <= k2 <= |t| && |open| > 0
    requires NextSpan(t, open, close, k).None? && NextSpan(t, open, close, k2).None?
    ensures DeleteFrom(t, open, close, k) == t[k..k2] + DeleteFrom(t, open, close, k2)
  {
    DeleteFromKeeps(t, open, close, k);
    DeleteFromKeeps(t, open, close, k2);
    assert t[k..] == t[k..k2] + t[k2..];
  }

  lemma {:induction false} SameSpanSome(t: string, open: string, close: string, k: nat, k2: nat, p: nat, q: nat)
    requires k <= k2 <= p && |open| > 0
    requires NextSpan(t, open, close, k) == Some((p, q)) && NextSpan(t, open, close, k2) == Some((p, q))
    ensures k2 <= |t|
    ensures DeleteFrom(t, open, close, k) == t[k..k2] + DeleteFrom(t, open, close, k2)
  {
    DeleteFromSpan(t, open, close, k, p, q);
    DeleteFromSpan(t, open, close, k2, p, q);
    SliceThen(t, k, k2, p, DeleteFrom(t, open, close, q + |close|));
  }

  /** Splitting a kept stretch in two, ahead of whatever follows it */
  lemma {:induction false} SliceThen(t: string, k: nat, k2: nat, p: nat, d: string)
    requires k <= k2 <= p <= |t|
    ensures t[k..p] + d == t[k..k2] + (t[k2..p] + d)
  {
    assert t[k..p] == t[k..k2] + t[k2..p];
  }

  /** Where no `open` starts in `[k, k2)`, deletion copies that stretch */
  lemma {:induction false} DeleteFromSkipTo(t: string, open: string, close: string, k: nat, k2: nat)
    requires k <= k2 <= |t| && |open| > 0
    requires forall j: nat :: k <= j < k2 ==> !OccursAt(t, open, j)
    ensures DeleteFrom(t, open, close, k) == t[k..k2] + DeleteFrom(t, open, close, k2)
  {
    FindFromSkip(t, open, k, k2);
    NextSpanSkip(t, open, close, k, k2);
    SameSpanDeletes(t, open, close, k, k2);
  }

  /** A prefix in which no `open` starts is kept, and the rest is deleted
      from as if it stood alone */
  lemma {:induction false} DeleteFromSkip(x: string, v: string, open: string, close: string)
    requires |open| > 0 && forall j: nat :: j < |x| ==> !OccursAt(x + v, open, j)
    ensures DeleteFrom(x + v, open, close, 0) == x + DeleteFrom(v, open, close, 0)
  {
    DeleteFromSkipTo(x + v, open, close, 0, |x|);
    DeleteFromOffset(x, v, open, close, 0);
    assert (x + v)[0..|x|] == x;
  }

  /** A text that opens with a span, `b` from an `open` to the first `close`
      after it, loses `b` and is deleted from as if the rest stood alone */
  lemma {:induction false} DeleteFromLeadingSpan(b: string, z: string, open: string, close: string)
    requires |open| > 0 && |close| <= |b| && OccursAt(b + z, open, 0)
    requires FindFrom(b + z, close, |open|) == Some(|b| - |close|)
    ensures DeleteFrom(b + z, open, close, 0) == DeleteFrom(z, open, close, 0)
  {
    SpanFirst(b + z, open, close, 0, |b|);
    DeleteFromOffset(b, z, open, close, 0);
  }

  /** A span that starts right at `k` and ends at `end` is skipped whole */
  lemma {:induction false} SpanFirst(t: string, open: string, close: string, k: nat, end: nat)
    requires |open| > 0 && |close| <= end <= |t| && OccursAt(t, open, k)
    requires FindFrom(t, close, k + |open|) == Some(end - |close|)
    ensures DeleteFrom(t, open, close, k) == DeleteFrom(t, open, close, end)
  {
    SpanStartsAt(t, open, close, k, end - |close|);
    DeleteFromSpan(t, open, close, k, k, end - |close|);
    EmptyThen(t[k..k], DeleteFrom(t, open, close, end));
  }

  /** An `open` right at `k` begins the next span */
  lemma {:induction false} SpanStartsAt(t: string, open: string, close: string, k: nat, q: nat)
    requires OccursAt(t, open, k) && FindFrom(t, close, k + |open|) == Some(q)
    ensures NextSpan(t, open, close, k) == Some((k, q))
  {
    MatchIsOccurs(t, open, k);
  }

  lemma {:induction false} EmptyThen(e: string, d: string)
    requires |e| == 0
    ensures e + d == d
  {
  }
}

=== FILE: theme_patch.dfy ===
/** The theme-template patcher of the script injector: the marker-delimited
    block wrapped around the optimization snippet, its insertion before the
    first `</head>` (or, failing that, the first `</body>`) of the layout
    template, and the removal of every block again.

    Both directions are plain string rewriting: insertion is
    `String.prototype.replace` with a string pattern, so the snippet is
    subject to the `$` patterns of the replacement template; removal is a
    global regex replace with a lazy body. */
module ThemePatch {
  import opened Wrappers
  import opened Strings

  const StartMarker: string := "<!-- Page Speed Optimizer App -->"
  const EndMarker: string := "<!-- End Page Speed Optimizer App -->"
  const HeadClose: string := "</head>"
  const BodyClose: string := "</body>"
  const ScriptOpen: string := "<script>"
  const ScriptClose: string := "</script>"

  /** `body` between an opening and a closing line */
  function Wrap(open: string, body: string, close: string): string {
    open + "\n" + body + "\n" + close
  }

  /** The script element holding the snippet, its tags on lines of their own */
  function ScriptElement(script: string): string {
    Wrap(ScriptOpen, script, ScriptClose)
  }

  /** The injected block: a line break, the start marker, the script element
      and the end marker, each on its own line, and a final line break */
  function InjectionBlock(script: string): (b: string)
    ensures |b| == |script| + 93
  {
    "\n" + Wrap(StartMarker, ScriptElement(script), EndMarker) + "\n"
  }

  /** `a` is where the block goes: the first `</head>`, or, when the text has
      none, the first `</body>` */
  predicate AnchorAt(t: string, a: nat) {
    IndexOf(t, HeadClose) == Some(a) || (IndexOf(t, HeadClose).None? && IndexOf(t, BodyClose) == Some(a))
  }

  /** The anchor in terms of occurrences */
  lemma {:induction false} AnchorAtMeans(t: string, a: nat)
    ensures AnchorAt(t, a) <==>
      FirstOccurrence(t, HeadClose, a) || (Absent(t, HeadClose) && FirstOccurrence(t, BodyClose, a))
  {
    IndexOfMeans(t, HeadClose);
    IndexOfMeans(t, BodyClose);
    if FirstOccurrence(t, HeadClose, a) {
      IndexOfIs(t, HeadClose, a);
    }
    if FirstOccurrence(t, BodyClose, a) {
      IndexOfIs(t, BodyClose, a);
    }
  }

  /** The patched layout template: the block is put in front of the first
      `</head>` if there is one, else in front of the first `</body>`; with
      neither the text is returned as it is. Nothing checks for a block that
      is already there. */
  function Inject(t: string, script: string): (r: string)
    ensures !Contains(t, HeadClose) && !Contains(t, BodyClose) ==> r == t
  {
    var block := InjectionBlock(script);
    if Contains(t, HeadClose) then ReplaceFirst(t, HeadClose, block + HeadClose)
    else ReplaceFirst(t, BodyClose, block + BodyClose)
  }

  /** Every leftmost, lazy `StartMarker ... EndMarker` span deleted: the text
      never grows, and without a start marker it is kept as it is */
  function Remove(t: string): (r: string)
    ensures |r| <= |t|
    ensures !Contains(t, StartMarker) ==> r == t
  {
    DeleteFromShrinks(t, StartMarker, EndMarker, 0);
    DeleteFrom(t, StartMarker, EndMarker, 0)
  }

  /** Removal changes the text exactly when a start marker is followed,
      somewhere later, by an end marker */
  lemma {:induction false} RemoveChangesIffBlock(t: string)
    ensures Remove(t) == t <==> !HasSpanFrom(t, StartMarker, EndMarker, 0)
  {
    DeleteFromChangesIffSpan(t, StartMarker, EndMarker, 0);
  }

  /** Removal is what the regex matcher does, position by position */
  lemma {:induction false} RemoveIsScan(t: string)
    ensures Remove(t) == ScanFrom(t, StartMarker, EndMarker, 0)
  {
    DeleteFromIsScan(t, StartMarker, EndMarker, 0);
  }


  // ---- Where patterns occur in line-structured text ----

  /** A pattern holding a character that `s` lacks does not occur in `s` */
  lemma {:induction false} MissingChar(s: string, p: string, c: char)
    requires c in p && c !in s
    ensures IndexOf(s, p).None?
  {
    var k :| 0 <= k < |p| && p[k] == c;
    forall i: nat
      ensures !OccursAt(s, p, i)
    {
      if i + |p| <= |s| {
        assert s[i..i + |p|][k] == s[i + k];
        assert s[i + k] in s;
      }
    }
    IndexOfNone(s, p);
  }

  /** Cutting a text without `p` leaves `p` in neither part */
  lemma {:induction false} CutAbsent(t: string, p: string, a: nat)
    requires a <= |t| && IndexOf(t, p).None?
    ensures IndexOf(t[..a], p).None? && IndexOf(t[a..], p).None?
  {
    IndexOfMeans(t, p);
    assert t == t[..a] + t[a..];
    forall j: nat
      ensures !OccursAt(t[..a], p, j) && !OccursAt(t[a..], p, j)
    {
      OccursInConcat(t[..a], t[a..], p, j);
      OccursInConcat(t[..a], t[a..], p, a + j);
    }
    IndexOfNone(t[..a], p);
    IndexOfNone(t[a..], p);
  }

  /** Cutting a text at the first `p` leaves no `p` before the cut and one
      right after it */
  lemma {:induction false} CutAtFirst(t: string, p: string, a: nat)
    requires |p| > 0 && IndexOf(t, p) == Some(a)
    ensures IndexOf(t[..a], p).None? && IndexOf(t[a..], p) == Some(0)
  {
    IndexOfMeans(t, p);
    assert t == t[..a] + t[a..];
    forall j: nat
      ensures !OccursAt(t[..a], p, j)
    {
      OccursInConcat(t[..a], t[a..], p, j);
    }
    IndexOfNone(t[..a], p);
    OccursInConcat(t[..a], t[a..], p, a);
    IndexOfIs(t[a..], p, 0);
  }

  /** A pattern without line breaks occurs in a wrapped body only inside
      one of its three lines */
  lemma {:induction false} IndexOfWrap(open: string, body: string, close: string, p: string)
    requires '\n' !in p
    requires IndexOf(open, p).None? && IndexOf(body, p).None?
    ensures IndexOf(Wrap(open, body, close), p) ==
      if IndexOf(close, p).Some? then Some(|open| + |body| + 2 + IndexOf(close, p).value) else None
  {
    assert Wrap(open, body, close) == open + ['\n'] + (body + ['\n'] + close);
    IndexOfAroundSeparator(body, '\n', close, p);
    IndexOfAroundSeparator(open, '\n', body + ['\n'] + close, p);
  }

  /** A wrap whose opening line lacks one character of `p`, whose closing
      line lacks another, and whose body is free of `p` is free of `p` */
  lemma {:induction false} WrapAvoids(open: string, body: string, close: string, p: string, c: char, d: char)
    requires '\n' !in p && c in p && d in p && c !in open && d !in close
    requires IndexOf(body, p).None?
    ensures IndexOf(Wrap(open, body, close), p).None?
  {
    MissingChar(open, p, c);
    MissingChar(close, p, d);
    IndexOfWrap(open, body, close, p);
  }

  /** A line framed by line breaks and free of `p` is passed over: the first
      `p` after it is the first one of what follows, shifted */
  lemma {:induction false} IndexOfPastLine(x: string, w: string, y: string, p: string)
    requires '\n' !in p && IndexOf(x, p).None? && IndexOf(w, p).None?
    ensures IndexOf(x + ("\n" + w + "\n") + y, p) ==
      if IndexOf(y, p).Some? then Some(|x| + |w| + 2 + IndexOf(y, p).value) else None
  {
    assert x + ("\n" + w + "\n") + y == x + ['\n'] + (w + ['\n'] + y);
    IndexOfAroundSeparator(w, '\n', y, p);
    IndexOfAroundSeparator(x, '\n', w + ['\n'] + y, p);
  }

  /** Such a line put in front of the first `p` leaves that `p` first */
  lemma {:induction false} AnchorPastLine(t: string, w: string, a: nat, p: string)
    requires |p| > 0 && '\n' !in p && IndexOf(w, p).None? && IndexOf(t, p) == Some(a)
    ensures IndexOf(t[..a] + ("\n" + w + "\n") + t[a..], p) == Some(a + |w| + 2)
  {
    CutAtFirst(t, p, a);
    IndexOfPastLine(t[..a], w, t[a..], p);
  }

  /** ... and put into a text without `p`, it brings no `p` in */
  lemma {:induction false} AbsentPastLine(t: string, w: string, a: nat, p: string)
    requires a <= |t| && '\n' !in p && IndexOf(w, p).None? && IndexOf(t, p).None?
    ensures IndexOf(t[..a] + ("\n" + w + "\n") + t[a..], p).None?
  {
    CutAbsent(t, p, a);
    IndexOfPastLine(t[..a], w, t[a..], p);
  }

  // ---- Deleting a line-structured block ----

  /** The first opening marker after a prefix free of it and a line break */
  lemma {:induction false} OpenAfterPrefix(x: string, m: string, z: string)
    requires '\n' !in m && IndexOf(x, m).None?
    ensures FindFrom(x + "\n" + m + z, m, 0) == Some(|x| + 1)
  {
    OccursInConcat(m, z, m, 0);
    IndexOfIs(m + z, m, 0);
    IndexOfAroundSeparator(x, '\n', m + z, m);
    assert x + "\n" + m + z == x + ['\n'] + (m + z);
  }

  /** The first closing marker of a body line followed by one */
  lemma {:induction false} CloseEndsBody(s: string, e: string, v: string)
    requires |e| > 0 && '\n' !in e && IndexOf(s, e).None?
    ensures IndexOf("\n" + s + "\n" + e + v, e) == Some(|s| + 2)
  {
    var z := e + v;
    OccursInConcat(e, v, e, 0);
    IndexOfIs(z, e, 0);
    IndexOfNone([], e);
    IndexOfWrap([], s, z, e);
    assert "\n" + s + "\n" + e + v == Wrap([], s, z);
  }

  /** After the opening marker, the first closing marker is the one that
      ends the body's line */
  lemma {:induction false} CloseAfterBody(u: string, s: string, e: string, v: string)
    requires |e| > 0 && '\n' !in e && IndexOf(s, e).None?
    ensures FindFrom(u + ("\n" + s + "\n" + e + v), e, |u|) == Some(|u| + |s| + 2)
  {
    var y := "\n" + s + "\n" + e + v;
    CloseEndsBody(s, e, v);
    FindFromOffset(u, y, e, 0);
  }

  /** A text cut into what precedes the block, the block and the rest */
  lemma {:induction false} BlockParts(x: string, m: string, s: string, e: string, y: string)
    ensures x + ("\n" + Wrap(m, s, e) + "\n") + y ==
      (x + "\n" + m) + ("\n" + s + "\n" + e + ("\n" + y))
    ensures (x + ("\n" + Wrap(m, s, e) + "\n") + y)[..|x| + 1] == x + "\n"
    ensures (x + ("\n" + Wrap(m, s, e) + "\n") + y)[|x| + |m| + |s| + 3 + |e|..] == "\n" + y
  {
    var w := x + ("\n" + Wrap(m, s, e) + "\n") + y;
    assert w == (x + "\n") + (m + "\n" + s + "\n" + e) + ("\n" + y);
  }

  /** The block's opening marker is the text's first */
  lemma {:induction false} BlockOpen(x: string, m: string, s: string, e: string, y: string)
    requires '\n' !in m && IndexOf(x, m).None?
    ensures FindFrom(x + ("\n" + Wrap(m, s, e) + "\n") + y, m, 0) == Some(|x| + 1)
  {
    BlockParts(x, m, s, e, y);
    OpenAfterPrefix(x, m, "\n" + s + "\n" + e + ("\n" + y));
  }

  /** The block's closing marker is the first after its opening one */
  lemma {:induction false} BlockClose(x: string, m: string, s: string, e: string, y: string)
    requires |e| > 0 && '\n' !in e && IndexOf(s, e).None?
    ensures FindFrom(x + ("\n" + Wrap(m, s, e) + "\n") + y, e, |x| + 1 + |m|) ==
      Some(|x| + |m| + |s| + 3)
  {
    BlockParts(x, m, s, e, y);
    CloseAfterBody(x + "\n" + m, s, e, "\n" + y);
  }

  /** No opening marker follows the block */
  lemma {:induction false} NoOpenPastBlock(x: string, m: string, s: string, e: string, y: string)
    requires '\n' !in m && IndexOf(y, m).None?
    ensures FindFrom(x + ("\n" + Wrap(m, s, e) + "\n") + y, m, |x| + |m| + |s| + 3 + |e|).None?
  {
    var w := x + ("\n" + Wrap(m, s, e) + "\n") + y;
    var k := |x| + |m| + |s| + 3 + |e|;
    BlockParts(x, m, s, e, y);
    IndexOfAroundSeparator([], '\n', y, m);
    assert [] + ['\n'] + y == w[k..];
    NoneInRest(w, m, k);
  }

  /** A search from `k` finds nothing when the rest of the text from `k` has
      no occurrence */
  lemma {:induction false} NoneInRest(w: string, m: string, k: nat)
    requires k <= |w| && IndexOf(w[k..], m).None?
    ensures FindFrom(w, m, k).None?
  {
    assert w == w[..k] + w[k..];
    FindFromOffset(w[..k], w[k..], m, 0);
  }

  /** A block whose markers lack line breaks, whose body has no closing
      marker, put where neither side has an opening marker, is deleted down
      to its two framing line breaks */
  lemma {:induction false} DeleteBlock(x: string, m: string, s: string, e: string, y: string)
    requires |m| > 0 && |e| > 0 && '\n' !in m && '\n' !in e
    requires IndexOf(x, m).None? && IndexOf(y, m).None? && IndexOf(s, e).None?
    ensures DeleteFrom(x + ("\n" + Wrap(m, s, e) + "\n") + y, m, e, 0) == x + "\n\n" + y
  {
    var w := x + ("\n" + Wrap(m, s, e) + "\n") + y;
    var q := |x| + |m| + |s| + 3;
    assert FindFrom(w, m, 0) == Some(|x| + 1) by {
      BlockOpen(x, m, s, e, y);
    }
    assert FindFrom(w, e, |x| + 1 + |m|) == Some(q) by {
      BlockClose(x, m, s, e, y);
    }
    assert FindFrom(w, m, q + |e|).None? by {
      NoOpenPastBlock(x, m, s, e, y);
    }
    assert w[..|x| + 1] == x + "\n" && w[q + |e|..] == "\n" + y by {
      BlockParts(x, m, s, e, y);
    }
    DeleteSingleSpan(w, m, e, |x| + 1, q);
    assert (x + "\n") + ("\n" + y) == x + "\n\n" + y;
  }

  /** A text with a single span: deleting it joins what precedes and what
      follows the span */
  lemma {:induction false} DeleteSingleSpan(t: string, m: string, e: string, p: nat, q: nat)
    requires |m| > 0 && FindFrom(t, m, 0) == Some(p) && FindFrom(t, e, p + |m|) == Some(q)
    requires q + |e| <= |t| && FindFrom(t, m, q + |e|).None?
    ensures DeleteFrom(t, m, e, 0) == t[..p] + t[q + |e|..]
  {
    DeleteFromStep(t, m, e, 0, p, q);
    DeleteFromKeeps(t, m, e, q + |e|);
  }

  /** A text whose first opening marker starts right after one character,
      the marker's second character differing from its first */
  lemma {:induction false} OpenAfterStray(c: string, m: string, e: string, z: string)
    requires |c| == 1 && |m| >= 2 && m[1] != m[0]
    ensures FindFrom(c + m + e + z, m, 0) == Some(1)
  {
    var t := c + m + e + z;
    assert t == c + (m + (e + z));
    OccursInConcat(c, m + (e + z), m, 1);
    OccursInConcat(m, e + z, m, 0);
    assert t[1] == m[0];
    assert t[0..|m|][1] == t[1];
    FindFromIs(t, m, 0, 1);
  }

  /** An occurrence found right at the search start */
  lemma {:induction false} FoundAt(x: string, p: string, y: string)
    ensures FindFrom(x + p + y, p, |x|) == Some(|x|)
  {
    assert x + p + y == x + (p + y);
    OccursInConcat(p, y, p, 0);
    OccursInConcat(x, p + y, p, |x|);
    FindFromIs(x + p + y, p, |x|, |x|);
  }

  /** Markers that both begin with a character occurring nowhere else in
      either, and that differ within the opening marker's length: the
      opening marker without its first character, then the closing marker,
      hold no opening marker */
  lemma {:induction false} NoOpenInTail(m: string, e: string, k: nat)
    requires |m| > 0 && |e| > 0 && e[0] == m[0]
    requires forall i :: 1 <= i < |m| ==> m[i] != m[0]
    requires forall i :: 1 <= i < |e| ==> e[i] != m[0]
    requires k < |m| <= |e| && e[k] != m[k]
    ensures IndexOf(m[1..] + e, m).None?
  {
    var u := m[1..] + e;
    forall i: nat
      ensures !OccursAt(u, m, i)
    {
      if i + |m| <= |u| {
        if i + 1 < |m| {
          assert u[i..i + |m|][0] == u[i] == m[i + 1];
        } else if i + 1 == |m| {
          assert u[i..i + |m|][k] == u[i + k] == e[k];
        } else {
          assert u[i..i + |m|][0] == u[i] == e[i + 1 - |m|];
        }
      }
    }
    IndexOfNone(u, m);
  }

  /** One character, a span and a rest free of the opening marker: the
      span goes and the character meets the rest */
  lemma {:induction false} StraySpanRemoved(c: string, m: string, e: string, rest: string)
    requires |c| == 1 && |m| >= 2 && m[1] != m[0] && IndexOf(rest, m).None?
    ensures DeleteFrom(c + m + e + rest, m, e, 0) == c + rest
  {
    var t := c + m + e + rest;
    assert FindFrom(t, m, 0) == Some(1) by {
      OpenAfterStray(c, m, e, rest);
    }
    assert FindFrom(t, e, 1 + |m|) == Some(1 + |m|) by {
      FoundAt(c + m, e, rest);
    }
    assert FindFrom(t, m, 1 + |m| + |e|).None? by {
      FindFromOffset(c + m + e, rest, m, 0);
    }
    DeleteSingleSpan(t, m, e, 1, 1 + |m|);
    assert t[..1] == c && t[1 + |m| + |e|..] == rest;
  }

  /** Deleting the one span of the spliced text joins the stray first
      character to the rest of the opening marker */
  lemma {:induction false} SpliceRemoval(m: string, e: string)
    requires |m| >= 2 && m[1] != m[0] && IndexOf(m[1..] + e, m).None?
    ensures DeleteFrom(m[..1] + m + e + m[1..] + e, m, e, 0) == m + e
  {
    StraySpanRemoved(m[..1], m, e, m[1..] + e);
    assert m[..1] + m + e + (m[1..] + e) == m[..1] + m + e + m[1..] + e;
    assert m[..1] + (m[1..] + e) == m + e;
  }

  /** A lone opening and closing marker are deleted entirely */
  lemma {:induction false} LoneSpanRemoved(m: string, e: string)
    requires |m| > 0
    ensures DeleteFrom(m + e, m, e, 0) == ""
  {
    var u := m + e;
    FoundAt([], m, e);
    assert [] + m + e == u;
    FoundAt(m, e, []);
    assert m + e + [] == u;
    DeleteFromStep(u, m, e, 0, 0, |m|);
    DeleteFromKeeps(u, m, e, |u|);
  }

  // ---- Character facts about the fixed strings ----

  lemma {:induction false} AnchorChars()
    ensures '\n' !in HeadClose && '/' in HeadClose && 'h' in HeadClose && '$' !in HeadClose
    ensures '\n' !in BodyClose && '/' in BodyClose && 'b' in BodyClose && '$' !in BodyClose
  {
  }

  lemma {:induction false} TagChars()
    ensures '/' !in ScriptOpen && '!' !in ScriptOpen && '$' !in ScriptOpen
    ensures 'h' !in ScriptClose && 'b' !in ScriptClose && '!' !in ScriptClose && '$' !in ScriptClose
  {
  }

  // One fact per lemma: each costs the solver a walk over a whole marker

  lemma {:induction false} StartMarkerBreakless()
    ensures '\n' !in StartMarker
  {
  }

  lemma {:induction false} StartMarkerSlashless()
    ensures '/' !in StartMarker
  {
  }

  lemma {:induction false} StartMarkerDollarless()
    ensures '$' !in StartMarker
  {
  }

  lemma {:induction false} EndMarkerBreakless()
    ensures '\n' !in EndMarker
  {
  }

  lemma {:induction false} EndMarkerSlashless()
    ensures '/' !in EndMarker
  {
  }

  lemma {:induction false} EndMarkerDollarless()
    ensures '$' !in EndMarker
  {
  }

  lemma {:induction false} EndMarkerBang()
    ensures '!' in EndMarker
  {
  }

  /** Both markers open with the comment's `<` and hold no other */
  lemma {:induction false} MarkerLeads()
    ensures |StartMarker| == 33 && |EndMarker| == 37
    ensures StartMarker[0] == '<' && EndMarker[0] == '<'
    ensures forall i :: 1 <= i < |StartMarker| ==> StartMarker[i] != '<'
    ensures forall i :: 1 <= i < |EndMarker| ==> EndMarker[i] != '<'
    ensures StartMarker[5] != EndMarker[5]
  {
  }

  // ---- The block in the template ----

  /** The block with its lines named */
  lemma {:induction false} BlockLines(script: string)
    ensures InjectionBlock(script) == "\n" + Wrap(StartMarker, ScriptElement(script), EndMarker) + "\n"
  {
  }

  /** A block whose snippet is free of an anchor is free of that anchor */
  lemma {:induction false} BlockAvoidsAnchors(script: string)
    requires !Contains(script, HeadClose) && !Contains(script, BodyClose)
    ensures IndexOf(Wrap(StartMarker, ScriptElement(script), EndMarker), HeadClose).None?
    ensures IndexOf(Wrap(StartMarker, ScriptElement(script), EndMarker), BodyClose).None?
  {
    AnchorChars();
    TagChars();
    StartMarkerSlashless();
    EndMarkerSlashless();
    WrapAvoids(ScriptOpen, script, ScriptClose, HeadClose, '/', 'h');
    WrapAvoids(StartMarker, ScriptElement(script), EndMarker, HeadClose, '/', '/');
    WrapAvoids(ScriptOpen, script, ScriptClose, BodyClose, '/', 'b');
    WrapAvoids(StartMarker, ScriptElement(script), EndMarker, BodyClose, '/', '/');
  }

  /** The script element has no end marker when the snippet has none */
  lemma {:induction false} ScriptElementLacksEnd(script: string)
    requires !Contains(script, EndMarker)
    ensures IndexOf(ScriptElement(script), EndMarker).None?
  {
    TagChars();
    EndMarkerBreakless();
    EndMarkerBang();
    WrapAvoids(ScriptOpen, script, ScriptClose, EndMarker, '!', '!');
  }

  /** The replacement template holds a `$` only if the snippet does */
  lemma {:induction false} TemplateHasNoDollar(script: string, anchor: string)
    requires '$' !in script && '$' !in anchor
    ensures '$' !in InjectionBlock(script) + anchor
  {
    TagChars();
    StartMarkerDollarless();
    EndMarkerDollarless();
  }

  // ---- Properties of the patch ----

  lemma {:induction false} Regroup(u: string, v: string, w: string, z: string)
    ensures u + (v + w) + z == u + v + (w + z)
  {
  }

  /** Replacing the first `anchor` by `block + anchor`, with no `$` in the
      template, puts `block` in front of that occurrence */
  lemma {:induction false} InsertBefore(t: string, anchor: string, block: string, a: nat)
    requires FirstOccurrence(t, anchor, a) && '$' !in block + anchor
    ensures ReplaceFirst(t, anchor, block + anchor) == t[..a] + block + t[a..]
  {
    ReplaceFirstAt(t, anchor, block + anchor, a);
    assert t[a..] == anchor + t[a + |anchor|..];
    Regroup(t[..a], block, anchor, t[a + |anchor|..]);
  }

  /** With a `</head>` and a snippet free of `$`, the block goes right before
      the first `</head>`: the text before it and everything from it on,
      later `</head>`s included, are unchanged, and the text grows by
      exactly the block's length. */
  lemma {:induction false} InjectBeforeHead(t: string, script: string, a: nat)
    requires IndexOf(t, HeadClose) == Some(a) && '$' !in script
    ensures Inject(t, script) == t[..a] + InjectionBlock(script) + t[a..]
    ensures |Inject(t, script)| == |t| + |InjectionBlock(script)|
  {
    AnchorChars();
    TemplateHasNoDollar(script, HeadClose);
    IndexOfMeans(t, HeadClose);
    InsertBefore(t, HeadClose, InjectionBlock(script), a);
  }

  /** Without a `</head>`, the block goes right before the first `</body>` */
  lemma {:induction false} InjectBeforeBody(t: string, script: string, a: nat)
    requires IndexOf(t, HeadClose).None? && IndexOf(t, BodyClose) == Some(a) && '$' !in script
    ensures Inject(t, script) == t[..a] + InjectionBlock(script) + t[a..]
    ensures |Inject(t, script)| == |t| + |InjectionBlock(script)|
  {
    AnchorChars();
    TemplateHasNoDollar(script, BodyClose);
    IndexOfMeans(t, BodyClose);
    InsertBefore(t, BodyClose, InjectionBlock(script), a);
  }

  /** Either way, the block goes at the anchor */
  lemma {:induction false} InjectAtAnchor(t: string, script: string, a: nat)
    requires AnchorAt(t, a) && '$' !in script
    ensures Inject(t, script) == t[..a] + InjectionBlock(script) + t[a..]
  {
    if IndexOf(t, HeadClose) == Some(a) {
      InjectBeforeHead(t, script, a);
    } else {
      InjectBeforeBody(t, script, a);
    }
  }

  /** A snippet free of both anchors leaves the anchor of the patched text
      right after the block: the original anchor, moved by the block */
  lemma {:induction false} AnchorAfterBlock(t: string, script: string, a: nat)
    requires AnchorAt(t, a)
    requires !Contains(script, HeadClose) && !Contains(script, BodyClose)
    ensures AnchorAt(t[..a] + InjectionBlock(script) + t[a..], a + |InjectionBlock(script)|)
  {
    var w := Wrap(StartMarker, ScriptElement(script), EndMarker);
    AnchorChars();
    BlockAvoidsAnchors(script);
    BlockLines(script);
    if IndexOf(t, HeadClose) == Some(a) {
      AnchorPastLine(t, w, a, HeadClose);
    } else {
      AbsentPastLine(t, w, a, HeadClose);
      AnchorPastLine(t, w, a, BodyClose);
    }
  }

  lemma {:induction false} SplitAfterBlock(x: string, block: string, y: string)
    ensures (x + block + y)[..|x| + |block|] == x + block
    ensures (x + block + y)[|x| + |block|..] == y
  {
  }

  /** There is no existing-block check: patching twice puts two blocks, one
      after the other, in front of the same anchor */
  lemma {:induction false} InjectTwice(t: string, script: string, a: nat)
    requires AnchorAt(t, a) && '$' !in script
    requires !Contains(script, HeadClose) && !Contains(script, BodyClose)
    ensures Inject(Inject(t, script), script) ==
      t[..a] + InjectionBlock(script) + InjectionBlock(script) + t[a..]
  {
    var block := InjectionBlock(script);
    InjectAtAnchor(t, script, a);
    AnchorAfterBlock(t, script, a);
    InjectAtAnchor(t[..a] + block + t[a..], script, a + |block|);
    SplitAfterBlock(t[..a], block, t[a..]);
  }

  /** Removing right after patching does not give the original back: the
      block's leading and trailing line breaks survive, so the result is the
      original with "\n\n" at the anchor. The original must hold no start
      marker, the snippet neither an end marker nor a `$`. */
  lemma {:induction false} RemoveAfterInject(t: string, script: string, a: nat)
    requires AnchorAt(t, a) && '$' !in script
    requires !Contains(t, StartMarker) && !Contains(script, EndMarker)
    ensures Remove(Inject(t, script)) == t[..a] + "\n\n" + t[a..]
    ensures Remove(Inject(t, script)) != t
  {
    InjectAtAnchor(t, script, a);
    BlockLines(script);
    StartMarkerBreakless();
    EndMarkerBreakless();
    MarkerLeads();
    CutAbsent(t, StartMarker, a);
    ScriptElementLacksEnd(script);
    DeleteBlock(t[..a], StartMarker, ScriptElement(script), EndMarker, t[a..]);
  }

  /** Removal is not idempotent: deleting one span can splice the two halves
      of a start marker together, making a new block out of text that was
      not one. */
  lemma {:induction false} RemoveNotIdempotent()
    ensures var t := StartMarker[..1] + StartMarker + EndMarker + StartMarker[1..] + EndMarker;
      Remove(t) == StartMarker + EndMarker && Remove(Remove(t)) == "" && Remove(Remove(t)) != Remove(t)
  {
    MarkerLeads();
    NoOpenInTail(StartMarker, EndMarker, 5);
    SpliceRemoval(StartMarker, EndMarker);
    LoneSpanRemoved(StartMarker, EndMarker);
  }
}

=== FILE: wrappers.dfy ===
/** The wrappers used across the model: an optional value, and a value or
    an error. */
module Wrappers {

  /** A value that may be absent: `null` or `undefined` in JavaScript */
  datatype Option<+T> = None | Some(value: T)

  /** The outcome of a call that can fail: its value, or the error it
      reports */
  datatype Result<+R, +E> = Success(value: R) | Failure(error: E)
}
